=== FILE: README.md ===
# FusionCRM core in Dafny

FusionCRM is a small sales CRM for PicoCELA. It tracks construction and infrastructure
companies, rates how relevant each one is to PicoCELA's wireless mesh products, and moves each
company through a sales pipeline: New, Contacted, Replied, Engaged, Qualified, Proposal,
Negotiation, Won, Lost and Dormant. The companies live in a Google spreadsheet. A Google Apps
Script web app reads and writes that spreadsheet. Streamlit pages call the web app, score
records before sending them, normalise what comes back, and administer users.

This project models the core of that system as pure Dafny functions over immutable values and
proves what they promise.

- **The Apps Script backend** (`sheet_store.dfy`, `router.dfy`). The spreadsheet is a value: a
  map from sheet name to rows of cells, plus a "shared" flag. What the Drive finds is an
  `Option` of it. The platform's clock, the signed-in user, the UUID generator, and how the
  history write ends (written, failing before the history sheet exists, or failing after) all
  arrive in an `Env` record. Every operation returns the
  Drive after the request together with its result:
  - `getOrCreateSpreadsheet` and the sheet getters;
  - `getCompanies`, `addCompany`, `updateCompanyStatus` and `addStatusHistory`;
  - `doPost`, the request router.

  JavaScript truthiness, `||` defaults, `===`, template-literal text, and the fact that
  writing `undefined` or `null` empties a cell are each written out.
- **Keyword scoring** (`scoring.dfy`, `tables.dfy`, `data_processor.dfy`,
  `company_management.dfy`, `app_copies.dfy`):
  - the ENR scorers of `crm_modules/crm_data_processor.py` and the import pipeline of
    `DataImportProcessor`: column-mapping suggestion, WiFi detection, relevance and priority
    from imported data, and the import preview;
  - the extended scorer, next-action table and record preparation of
    `company_management_module.py`;
  - the record preparation of `fusion_crm_main.py` and `pages/01_crm_new.py`, whose scorers are
    the shared ones.

  Text is matched after ASCII lower-casing. Python dictionaries are maps from keys to values
  that are strings, integers or `None`.
- **Record normalisation and user administration** (`crm_complete.dfy`, `user_admin.dfy`): the
  normalisation of spreadsheet rows for display, and the score of the add-company form, both in
  `pages/01_crm_complete.py`; the user-list filter and the registration checks of
  `fusion_crm_unified.py`.

`foundation.dfy` holds the shared vocabulary: `Option`/`Result`, lower-casing, substring
search, decimal rendering and parsing, filtering and subsequences, and an all-or-nothing
indexed map.

Where Python raises, the model returns `None`. Where JavaScript throws, it returns an error
result. Both are explicit values in every contract. There are three exceptions in
`DataImportProcessor`, each an input its only caller never supplies:
- The import scorers. `' '.join` raises a `TypeError` when the company name, notes or industry
  is not a string. `DataProcessor.WifiNeedFromData` and `DataProcessor.RelevanceFromData`
  therefore require those fields to be strings (`DataProcessor.TextFields`). The import preview
  meets that requirement by construction, since every mapped field is a cell's text
  (`DataProcessor.MappedFields`).
- The import priority. `base_score += 50` and `min(base_score, 150)` raise a `TypeError` when
  the relevance score is a string or `None`. `DataProcessor.PriorityFromData` therefore requires
  an integer relevance or none at all (`DataProcessor.HasIntRelevance`). The preview always
  stores an integer relevance before it asks for the priority.
- The column-mapping suggestion. `DataProcessor.SuggestColumnMapping` takes column labels as
  strings, so the `AttributeError` that `file_col.lower()` raises on a numeric header cannot
  arise in the model.

JavaScript's `undefined` and `null` are distinct cell values. Both are falsy, both empty a cell
when written, and template text renders them as "undefined" and "null".

An empty companies sheet exposes an edge case of the code. If the
sheet exists but its header row was deleted, `appendRow` writes the first company into row 1,
and `getCompanies` treats row 1 as the header. That company is therefore never listed. The
round-trip lemmas `Sheets.AddThenList` and `Backend.AddThenGet` require the header to be
present (`Sheets.HeaderKept`) for this reason. Likewise, `updateCompanyStatus` compares ids with
`===`, so a request with an empty id can match, and rewrite, a row whose id cell is empty. The
listing never shows such a row, so `Sheets.UpdateThenList` is stated for truthy ids, and so is `Backend.UpdateThenGet`.

## Model

| member | source | states |
|---|---|---|
| Sheets.Or | google_apps_script_backend.js:150-160 | `x \|\| d` keeps a truthy value and otherwise yields the default, with JavaScript's falsy values |
| Sheets.Stored | google_apps_script_backend.js:162 | a written `undefined` or `null` is read back as an empty cell, and any other value is kept |
| Sheets.CellAt | google_apps_script_backend.js:109-127 | reading past the end of a row through a range gives "" |
| Sheets.SetCell | google_apps_script_backend.js:202-203 | `setValue` puts the value in its column, leaves every other cell as it read, and widens a short row |
| Sheets.WithSheet | google_apps_script_backend.js:55-88 | a missing sheet is inserted with exactly its header row; an existing one and all other sheets are untouched |
| Sheets.OpenBookFacts | google_apps_script_backend.js:14-50 | a newly created spreadsheet has both sheets with their headers and is shared; an existing one is used as found |
| Sheets.CompaniesBook | google_apps_script_backend.js:55-69 | after `getCompaniesSheet` the companies sheet exists, an existing one is unchanged, and its header is there unless it was deleted |
| Sheets.PutRows | google_apps_script_backend.js:162 | replacing one sheet's rows leaves every other sheet as it was |
| Sheets.ListCompanies | google_apps_script_backend.js:103-131 | with nothing below the header the list is empty; otherwise at most one company per data row, and every listed company has a truthy id |
| Sheets.ListAppend | google_apps_script_backend.js:109-131 | appending a row adds one company at the end exactly when its id is truthy, and the earlier companies keep their order |
| Sheets.ListReplace | google_apps_script_backend.js:112-129 | rewriting a data row without changing its truthy id keeps the number of listed companies and lists the rewritten row |
| Sheets.GetCompanies | google_apps_script_backend.js:100-136 | the companies sheet exists afterwards and is what is listed; an existing sheet leaves the Drive untouched; a missing sheet or spreadsheet is created with only its header and lists nothing; a non-empty list is shorter than the sheet and every listed id is truthy |
| Sheets.CompanyId | google_apps_script_backend.js:93-95 | a company id is "CMP_" followed by at most eight UUID characters |
| Sheets.NewRow | google_apps_script_backend.js:147-160 | the appended row has twelve cells: the new id; the name, or an empty cell for `undefined`/`null`; each of the nine `\|\|` fields its truthy value or its default ("", score 5, status "New", creation time now); and the current time |
| Sheets.AddCompany | google_apps_script_backend.js:141-173 | `addCompany` fails exactly when the data are `undefined` or `null`, with that value's property-read error, after the sheet was ensured and without appending; otherwise, even for a primitive, it returns the generated id, appends exactly the new row, and leaves every other sheet alone |
| Sheets.AddThenList | google_apps_script_backend.js:141-173 | adding and then listing gives the old list plus the new company, under the returned id, with status "New" and score 5 when not given, stamped now |
| Sheets.FindRow | google_apps_script_backend.js:188-195 | the row found is the first data row whose id is `===` the requested id; none is found exactly when no data row matches |
| Sheets.LocateCompany | google_apps_script_backend.js:184-199 | the search loop returns -1 exactly when no data row matches, and otherwise the 1-based sheet row of the first match, the one `FindRow` names |
| Sheets.HistoryRow | google_apps_script_backend.js:224-235 | a history entry has the history sheet's eight columns: an "HST_" id, the company id, the company name, the old and new status, the note when truthy and "" otherwise, the user and the time of the change |
| Sheets.AddStatusHistory | google_apps_script_backend.js:221-242 | a successful write appends exactly the new history row to the history sheet, or to a new headed one; a failure is swallowed: before the sheet exists it changes nothing, after it the history sheet is the existing one or a new header-only one; an existing history sheet survives a failure unchanged; no other sheet is touched |
| Sheets.HistoryFailureSwallowed | google_apps_script_backend.js:206-241 | however the history write ends, the update gives the same answer and the same companies sheet |
| Sheets.UpdatedRow | google_apps_script_backend.js:201-203 | the updated row has the new status in column 9 and the current time in column 12, and every other cell as before |
| Sheets.UpdateCompanyStatus | google_apps_script_backend.js:178-216 | the update fails exactly when no row has the id; it then reports "not found" and changes nothing beyond ensuring the sheet; on success the message names the old status of the first matching row and the new one |
| Sheets.UpdateTouchesOneRow | google_apps_script_backend.js:188-203 | a successful update rewrites only the first matching row, and in it only the status and last-update cells |
| Sheets.UpdateThenList | google_apps_script_backend.js:178-216 | after an update of a company with a truthy id, listing shows as many companies as before, among them that company with the new status and the update time |
| Sheets.UpdateRecordsHistory | google_apps_script_backend.js:206-237 | a successful update appends exactly one history row, with the id, the company's name, and the old and new status, to the history sheet, or to a new one when the sheet was missing |
| Sheets.GetKeepsWellFormed | google_apps_script_backend.js:55-69 | listing keeps a well-formed spreadsheet well formed, and creates a well-formed one when there is none |
| Sheets.CompaniesBookWellFormed | google_apps_script_backend.js:14-69 | opening and ensuring the companies sheet of a well-formed or missing spreadsheet yields a well-formed one |
| Sheets.AddKeepsWellFormed | google_apps_script_backend.js:141-173 | adding a company never overwrites a header row |
| Sheets.UpdateKeepsWellFormed | google_apps_script_backend.js:178-216 | updating a status never overwrites a header row |
| Sheets.UpdatedBookWellFormed | google_apps_script_backend.js:202-206 | rewriting a data row and appending history keep both header rows |
| Sheets.DataRowKeepsWellFormed | google_apps_script_backend.js:202-203 | rewriting a row below the header keeps both headers |
| Sheets.HistoryKeepsWellFormed | google_apps_script_backend.js:221-242 | appending a history row keeps both headers |
| Sheets.PutKeepsHeaded | google_apps_script_backend.js:162 | replacing a sheet's rows without changing its first row keeps every sheet's header |
| Backend.DoPost | google_apps_script_backend.js:247-327 | a listing's count is the number of companies; ping answers with its message and leaves the Drive alone; errors carry the request time; a body that is not a parsed object fails without touching the Drive |
| Backend.FailsExactly | google_apps_script_backend.js:258-327 | a request fails exactly when there is no object, the action is unknown, an add's data are `undefined` or `null`, or an update names no existing company |
| Backend.UnknownActionReported | google_apps_script_backend.js:306-321 | an unknown action fails with a message naming it as template text renders it, `null` as "null", and leaves the Drive alone |
| Backend.DataFailuresReported | google_apps_script_backend.js:285-321 | a failed add answers "Error: " and the wrapped property-read error, a failed update "Error: " and the wrapped not-found error; both leave the companies sheet ensured |
| Backend.UpdateAnswered | google_apps_script_backend.js:294-303 | an update of an existing company answers with the message naming the row's old status and the requested one |
| Backend.OnlyDataActionsTouchDrive | google_apps_script_backend.js:270-276 | ping and every failure before dispatch leave the Drive, even a missing spreadsheet, as it was |
| Backend.DoPostKeepsWellFormed | google_apps_script_backend.js:247-327 | any request keeps a well-formed spreadsheet, or the absence of one, well formed |
| Backend.UpdateThenGet | google_apps_script_backend.js:294-303 | posting an update for a company with a truthy id and then listing shows the same number of companies, among them that company with the requested status and the update time |
| Backend.AddThenGet | google_apps_script_backend.js:287-303 | posting a company and then listing returns the earlier list plus the new company under the reported id, and the count grows by one |
| Scoring.Found | crm_modules/crm_data_processor.py:25-27 | the keywords found are exactly the table's keywords occurring in the text |
| Scoring.FoundInOrder | crm_modules/crm_data_processor.py:25-27 | the keywords found keep the table's order |
| Scoring.FoundCount | crm_modules/crm_data_processor.py:25-29 | for a table without repeats, one hit is counted per distinct keyword present |
| Scoring.FoundFolded | crm_modules/crm_data_processor.py:26 | `keyword.lower() in text` finds exactly the keywords whose lower-case form occurs |
| Scoring.FoundFoldedSame | crm_modules/crm_data_processor.py:26 | for an already lower-case table, folding the keywords changes nothing |
| Scoring.TenPerKeyword | crm_modules/crm_data_processor.py:15-29 | ten points per distinct keyword present, capped at 100, so a multiple of ten; zero exactly when none is present |
| Scoring.FoundNone | crm_modules/crm_data_processor.py:25-27 | without a mention, nothing is found |
| Scoring.AnyFound | crm_modules/crm_data_processor.py:47-50 | the early-return loop answers whether any indicator occurs |
| Scoring.MentionsPresent | crm_modules/crm_data_processor.py:47-50 | a mention exists exactly when the set of keywords present is non-empty |
| Scoring.Weighted | crm_modules/crm_data_processor.py:115-117 | the summed points are at least those of each keyword present, and zero when none is present |
| Scoring.WeightedZero | crm_modules/crm_data_processor.py:115-117 | with positive points, the sum is zero exactly when no keyword is present |
| Scoring.CappedWeight | crm_modules/crm_data_processor.py:102-119 | the capped sum lies in [0, cap], is at least each present keyword's points (capped), and is zero exactly when none is present |
| Scoring.WeightedIsTotal | crm_modules/crm_data_processor.py:115-117 | the summed points are exactly the total of the points of the keywords present |
| Scoring.CappedWeightIsTotal | crm_modules/crm_data_processor.py:115-119 | with positive points, the capped sum is exactly the lesser of the cap and the total of the keywords present |
| Scoring.WeightedBounded | crm_modules/crm_data_processor.py:115-117 | the sum never exceeds the table's total points |
| Tables.FoldedTable | crm_modules/crm_constants.py:21-26 | a table of lower-case entries is its own lower-casing |
| Tables.PicoKeywordsFolded | crm_modules/crm_constants.py:21-26 | `PICOCELA_KEYWORDS` is already lower case |
| Tables.ScoringWeightsPositive | crm_modules/crm_constants.py:103-107 | every scoring keyword is worth a positive number of points |
| Tables.PicoKeywordsDistinct | crm_modules/crm_constants.py:21-26 | `PICOCELA_KEYWORDS` has no repeated entry |
| Tables.MappingRuleNamesDistinct | crm_modules/crm_constants.py:87-95 | the mapping rules name each target column once |
| DataProcessor.Relevance | crm_modules/crm_data_processor.py:13-29 | relevance is ten per distinct PicoCELA keyword in name, website, notes and industry, capped at 100; zero exactly when none occurs |
| DataProcessor.RelevanceAsWritten | crm_modules/crm_data_processor.py:25-29 | the score is the one computed with `keyword.lower() in full_text` |
| DataProcessor.DetectWifi | crm_modules/crm_data_processor.py:32-50 | WiFi need is detected exactly when an indicator occurs in name, notes or industry |
| DataProcessor.WifiIgnoresWebsite | crm_modules/crm_data_processor.py:39-43 | the website does not influence WiFi detection |
| DataProcessor.Priority | crm_modules/crm_data_processor.py:53-62 | priority is the relevance plus 50 when WiFi is needed, between the relevance and 150 |
| DataProcessor.FirstMatch | crm_modules/crm_data_processor.py:75-79 | the column chosen is the first whose lower-cased name contains a pattern; none exactly when no column does |
| DataProcessor.BindMatched | crm_modules/crm_data_processor.py:72-80 | each rule with a matching column binds its target to the first such column |
| DataProcessor.BindUnmatched | crm_modules/crm_data_processor.py:72-80 | a rule without a matching column binds nothing |
| DataProcessor.SuggestColumnMapping | crm_modules/crm_data_processor.py:69-81 | every suggested column is one of the file's, every target is a rule's, a target is bound exactly when a column matches, and it is bound to the first one |
| DataProcessor.WifiNeedFromData | crm_modules/crm_data_processor.py:83-100 | for string name, notes and industry, the import WiFi flag is 0 or 1, and 1 exactly when an import indicator occurs |
| DataProcessor.RelevanceFromData | crm_modules/crm_data_processor.py:102-120 | for string name, notes and industry, import relevance is in [0, 100], at least each present keyword's points, and zero exactly when no scoring keyword occurs |
| DataProcessor.RelevanceFromDataValue | crm_modules/crm_data_processor.py:102-119 | import relevance is exactly the total of the points of the scoring keywords present, capped at 100 |
| DataProcessor.PriorityFromData | crm_modules/crm_data_processor.py:122-138 | import priority is the base plus the WiFi, e-mail and website bonuses when that sum is at most 150, and exactly 150 above it |
| DataProcessor.PriorityReadsFourKeys | crm_modules/crm_data_processor.py:122-138 | the import priority depends only on relevance, WiFi flag, e-mail and website |
| DataProcessor.MappedFields | crm_modules/crm_data_processor.py:148-154 | a field is set exactly when its mapped column exists in the frame and the row, to the cell's text with NaN as ""; so every field is a string |
| DataProcessor.AutoWifi | crm_modules/crm_data_processor.py:160-164 | the WiFi flag is 1 exactly when detection is on and an indicator occurs |
| DataProcessor.AutoRelevance | crm_modules/crm_data_processor.py:166-170 | relevance is zero exactly when scoring is off or no keyword occurs |
| DataProcessor.AutoScoresAreScorers | crm_modules/crm_data_processor.py:160-170 | for string text fields, the preview's flag and relevance are those of the import scorers when switched on, and 0 otherwise |
| DataProcessor.ImportTextIgnoresWifi | crm_modules/crm_data_processor.py:105-113 | writing the WiFi flag does not change the text the relevance reads |
| DataProcessor.Scored | crm_modules/crm_data_processor.py:160-170 | the preview row keeps the mapped fields and gains the flag and the relevance computed from them |
| DataProcessor.Prepare | crm_modules/crm_data_processor.py:160-178 | a preview row keeps every mapped field and starts with status "New" |
| DataProcessor.PrepareScores | crm_modules/crm_data_processor.py:160-178 | the derived columns: flag 0 or 1 (0 when off), relevance in [0, 100] (0 when off), priority computed from the row, source defaulting to "Data Import" |
| DataProcessor.PrepareAll | crm_modules/crm_data_processor.py:143-178 | one preview row per kept input row |
| DataProcessor.PreviewStep | crm_modules/crm_data_processor.py:143-158 | one more input row adds its preview row exactly when it has a company name |
| DataProcessor.PreparedRowsNamed | crm_modules/crm_data_processor.py:156-177 | every preview row has a non-empty company name and status "New" |
| DataProcessor.SurvivorsNamed | crm_modules/crm_data_processor.py:156-177 | the preview rows of the rows that survive the company-name filter are all named and "New" |
| DataProcessor.CreateImportPreview | crm_modules/crm_data_processor.py:140-180 | the preview holds one scored row per input row with a company name, in input order, each named and "New" |
| CompanyManagement.KeywordsFolded | company_management_module.py:32-39 | the extended keyword table is already lower case |
| CompanyManagement.TablesDistinct | company_management_module.py:32-69 | neither the keyword table nor the construction terms repeat an entry |
| CompanyManagement.RelevanceWithMatches | company_management_module.py:45-71 | the score is in [0, 100] and the matched list is no longer than the table |
| CompanyManagement.RelevanceCounts | company_management_module.py:45-71 | ten per distinct keyword plus five per construction term present, capped at 100; the matched list is exactly the keywords present, in table order |
| CompanyManagement.MatchedAsWritten | company_management_module.py:60-64 | the matched list is the one built with `keyword.lower() in full_text` |
| CompanyManagement.RelevanceScore | company_management_module.py:45-71 | the relevance score lies in [0, 100] |
| CompanyManagement.RelevanceZero | company_management_module.py:45-71 | the score is zero exactly when neither a keyword nor a construction term occurs |
| CompanyManagement.DetectWifi | company_management_module.py:74-96 | WiFi need is detected exactly when one of its indicators occurs |
| CompanyManagement.WifiIgnoresWebsite | company_management_module.py:83-88 | the website does not influence WiFi detection |
| CompanyManagement.SourceText | company_management_module.py:111 | `.lower()` on the source fails exactly when a source is present and is not a string |
| CompanyManagement.SizeBonus | company_management_module.py:115-119 | 15 for a large company, otherwise 10 for a medium one, otherwise 0 |
| CompanyManagement.PriorityOf | company_management_module.py:99-122 | priority is the relevance plus the WiFi, ENR and size bonuses when that sum is at most 150, and exactly 150 above it; so it lies between the relevance and 150, at most 85 above it |
| CompanyManagement.Priority | company_management_module.py:99-122 | priority exists exactly when the source can be lower-cased, and is relevance plus the WiFi, ENR and size bonuses, capped at 150 |
| CompanyManagement.NextAction | company_management_module.py:228-242 | a next action is suggested exactly for the ten sales statuses, and "" for anything else |
| CompanyManagement.NextActionsCoverStatuses | company_management_module.py:230-241 | the action table covers exactly the sales statuses, each with a non-empty action |
| CompanyManagement.WifiFlag | company_management_module.py:195 | the WiFi flag is 0 or 1 |
| CompanyManagement.WriteScores | company_management_module.py:193-198 | the five computed keys are written, with status and source defaulted, and nothing else changes |
| CompanyManagement.PrepareRecord | company_management_module.py:185-198 | preparation succeeds exactly when the priority can be computed, keeps every other key, and defaults status to "New" and source to "Manual" |
| CompanyManagement.PreparedScores | company_management_module.py:185-198 | the prepared relevance, the comma-joined matches (each contained), the 0/1 flag that is 1 exactly on an indicator, and the priority of the record as given |
| MainApp.WriteScores | fusion_crm_main.py:183-185 | the three score keys are written and nothing else changes |
| MainApp.PrepareCompany | fusion_crm_main.py:175-185 | preparation keeps every other key and adds the three score keys |
| MainApp.PreparedValues | fusion_crm_main.py:179-185 | relevance in [0, 100], a flag that is 1 exactly when an indicator occurs, and priority equal to relevance plus 50 per flag |
| MainApp.PrepareIdempotent | fusion_crm_main.py:175-185 | preparing a prepared record changes nothing |
| MainApp.ScoresUnchanged | fusion_crm_main.py:179-185 | writing the scores does not change what the scorers compute |
| MainApp.ScorersIgnoreScores | fusion_crm_main.py:111-140 | the scorers' texts do not read the keys that preparation writes |
| MainApp.WriteTwice | fusion_crm_main.py:183-185 | writing the same scores twice equals writing them once |
| CrmNewPage.SalesStatus | pages/01_crm_new.py:180 | the sales status is the record's own, or "New" when it has none |
| CrmNewPage.WriteScores | pages/01_crm_new.py:177-180 | the three scores and the status are written and nothing else changes |
| CrmNewPage.PrepareCompany | pages/01_crm_new.py:171-180 | preparation keeps every other key, adds the three scores, and defaults the status |
| CrmNewPage.AgreesWithMainApp | pages/01_crm_new.py:177-179 | the uncapped priority equals the shared priority, stays at most 150, and all three scores agree with `fusion_crm_main.py` |
| CrmComplete.WifiDisplay | pages/01_crm_complete.py:124-130 | "✅ 必要" exactly for high or medium, "❌ 不要" exactly for low, and "❓ 未確認" otherwise |
| CrmComplete.StatusDisplay | pages/01_crm_complete.py:133-137 | the displayed status is one of the nine, equal to the stored one when it is among them, and "New" otherwise |
| CrmComplete.StatusDisplayFixes | pages/01_crm_complete.py:133-137 | normalising twice changes nothing, every sales status but Dormant is shown as itself, and Dormant as "New" |
| CrmComplete.FirstGroup | pages/01_crm_complete.py:144-155 | the group chosen is the first whose words occur; none exactly when no group's words occur |
| CrmComplete.Industry | pages/01_crm_complete.py:140-155 | the industry is one of the five group labels or "その他" |
| CrmComplete.IndustryFirstMatch | pages/01_crm_complete.py:144-155 | when group i is the first to match, its label is chosen |
| CrmComplete.IndustryOther | pages/01_crm_complete.py:154-155 | "その他" exactly when no group's words occur |
| CrmComplete.Remarks | pages/01_crm_complete.py:167 | the remarks fail exactly when a long description is not a string; short descriptions are kept as they are |
| CrmComplete.RemarksOfText | pages/01_crm_complete.py:167 | a description of at most 100 characters is kept; a longer one becomes its first 100 characters and "..." |
| CrmComplete.Registered | pages/01_crm_complete.py:168 | without a creation date the date is today; a truthy integer date fails; a string gives its first ten characters |
| CrmComplete.Score | pages/01_crm_complete.py:161 | a falsy score is 0, an integer is itself, and a string is parsed as an integer or fails |
| CrmComplete.ScoreOfRendered | pages/01_crm_complete.py:161 | the score of an integer's decimal text is that integer |
| CrmComplete.RowId | pages/01_crm_complete.py:158 | the id is the company's own, or "ID_" and the 1-based position |
| CrmComplete.FallbackIdsDiffer | pages/01_crm_complete.py:158 | two rows without an id at different positions get different ids |
| CrmComplete.NormalizeOne | pages/01_crm_complete.py:122-174 | a row normalises exactly when its fields can be converted; each displayed field is then the stored one or its default ("N/A" name, "Low" construction focus), status, WiFi and industry are their displays, score and priority the converted score, remarks and registration date their conversions, the sales rep "admin", and the id the row's |
| CrmComplete.Normalize | pages/01_crm_complete.py:118-178 | the list normalises exactly when every row does, keeping length and order |
| CrmComplete.AddFormScores | pages/01_crm_complete.py:408-437 | scores exist exactly when a company name was entered; the relevance is the raw keyword, industry and WiFi-need score capped at 100, and the priority is the relevance plus 10, capped at 100 |
| CrmComplete.FormTablesDistinct | pages/01_crm_complete.py:415-420 | the form's keyword lists have no repeats |
| CrmComplete.FormScoreCounts | pages/01_crm_complete.py:410-434 | the raw score is 12 per WiFi keyword plus 10 per construction keyword present, plus the industry and WiFi-need bonuses |
| CrmComplete.FormScoreFloor | pages/01_crm_complete.py:408-437 | with no keyword, no listed industry and low WiFi need, the scores are 0 and 10 |
| CrmComplete.FormWifiDisplay | pages/01_crm_complete.py:440 | the form shows "✅ 必要" exactly for High or Medium, and "❌ 不要" otherwise |
| CrmComplete.FormAndListAgree | pages/01_crm_complete.py:440 | a company entered with a WiFi level is displayed the same way by the list and the form |
| UserAdmin.FilterRole | fusion_crm_unified.py:1217-1219 | "管理者" selects administrators and every other choice selects ordinary users |
| UserAdmin.FilterUsers | fusion_crm_unified.py:1208-1230 | the list is no longer than the input and keeps exactly the users meeting every active condition |
| UserAdmin.StageAsFilter | fusion_crm_unified.py:1212-1228 | a switched-off stage passes the list through unchanged |
| UserAdmin.FilterUsersIsOneFilter | fusion_crm_unified.py:1208-1230 | the three stages equal a single filter by the combined condition, so table order is kept |
| UserAdmin.NoFilterKeepsAll | fusion_crm_unified.py:1208-1230 | with every filter off the list is unchanged |
| UserAdmin.FilterUsersIdempotent | fusion_crm_unified.py:1208-1230 | filtering again with the same choices changes nothing |
| UserAdmin.RegistrationErrors | fusion_crm_unified.py:289-301 | each message appears exactly when its check fails |
| UserAdmin.ErrorsInOrder | fusion_crm_unified.py:289-301 | the messages follow the order of the checks without repeats |
| UserAdmin.Submit | fusion_crm_unified.py:303-310 | a rejection carries exactly the failed checks' messages, at least one; otherwise the form's data go to registration unchanged |
| UserAdmin.RegistersIffValid | fusion_crm_unified.py:289-310 | registration is attempted exactly when all four checks pass |

## Left out

- `doGet` and `setupDatabase` in `google_apps_script_backend.js`: a health-check endpoint and a manual test fixture that add nothing to the data model.
- The CORS header object in `doPost`: it is built but never returned.
- Failures of the Drive and the spreadsheet service other than the history write are not modelled. So `getCompanies` always succeeds, and its error wrapper does not appear.
- Dates in messages: a `Date` in a status message is rendered as its time value, not as JavaScript's platform-dependent date text.
- Numbers in cells are integers; fractional scores are not modelled.
- `JSON.stringify` of the response and JSON parsing itself are left out: a body arrives already parsed, or with the parser's error description.
- Concurrent requests: the Apps Script runtime serialises nothing here, and the model treats each request alone.
- Lower-casing is ASCII-only: Python's and JavaScript's Unicode case mapping is not modelled, and the keyword tables are ASCII.
- DataProcessor.PriorityFromData: the `TypeError` for a relevance score that is a string or `None` is not modelled; the function requires an integer score or none, which its only caller always supplies.
- DataProcessor.SuggestColumnMapping: column labels are strings, so the `AttributeError` of `.lower()` on a non-string label, such as a numeric spreadsheet header, is not modelled.
- Sheets.AddStatusHistory: `getHistorySheet` is treated as all or nothing; a failure after `insertSheet` but before the header is written, which would leave a history sheet without a header, is not modelled.
- Sheets.Stored: Google Sheets' own conversion of number- and date-like strings on write is not modelled; a string is read back as written.
- CrmComplete.Score: Python's `int()` also accepts surrounding whitespace and underscores between digits; the model accepts only an optional sign followed by digits.
- CrmComplete.Remarks: Python's `str()` of floats and other objects is not modelled, because values are strings, integers or `None`.
- The Streamlit display code, the email campaign modules, the HTTP calls to the web app (`_call_api`, `call_api`), `register_user` and the SQLite user store are outside the core. Registration is modelled up to the data handed to `register_user`.
- `datetime.now()` in `normalize_google_sheets_data` is the `today` parameter.
- `DataImportProcessor.show_data_quality_analysis` and the ENR strategic analysis in `company_management_module.py` are reporting code outside the scoring core.
- The `pd.DataFrame` result of `create_import_preview` is modelled as the list of its row records.

=== FILE: app_copies.dfy ===
/** `fusion_crm_main.py`: its `ENRDataProcessor` is the one of `crm_data_processor.py`
    line for line, so the scorers are shared; what is its own is the record preparation
    of `CompanyManager.add_company`. */
module MainApp {
  import opened PyValues
  import DataProcessor

  /** The three keys `add_company` computes before the API call. */
  predicate IsScoreKey(k: string) {
    k == "picocela_relevance_score" || k == "wifi_required" || k == "priority_score"
  }

  /** Writes the three computed values into `rec`. */
  function WriteScores(rec: Record, relevance: int, wifi: int, priority: int): (r: Record)
    ensures forall k :: k in rec && !IsScoreKey(k) ==> k in r && r[k] == rec[k]
    ensures forall k :: k in r ==> k in rec || IsScoreKey(k)
    ensures "picocela_relevance_score" in r && r["picocela_relevance_score"] == Int(relevance)
    ensures "wifi_required" in r && r["wifi_required"] == Int(wifi)
    ensures "priority_score" in r && r["priority_score"] == Int(priority)
  {
    rec["picocela_relevance_score" := Int(relevance)]["wifi_required" := Int(wifi)]["priority_score" := Int(priority)]
  }

  /** `add_company` before the API call: relevance, a 0/1 WiFi flag and the capped priority,
      all computed from the record as the caller passed it. */
  function PrepareCompany(rec: Record): (r: Record)
    ensures forall k :: k in rec && !IsScoreKey(k) ==> k in r && r[k] == rec[k]
    ensures forall k :: k in r ==> k in rec || IsScoreKey(k)
    ensures "picocela_relevance_score" in r && "wifi_required" in r && "priority_score" in r
  {
    WriteScores(rec, DataProcessor.Relevance(rec), if DataProcessor.DetectWifi(rec) then 1 else 0,
                DataProcessor.Priority(rec))
  }

  /** The values written: relevance in [0, 100], the flag is 1 exactly when an indicator occurs,
      and the priority is the relevance plus 50 for that flag. */
  lemma PreparedValues(rec: Record)
    ensures var r := PrepareCompany(rec);
      && r["picocela_relevance_score"] == Int(DataProcessor.Relevance(rec))
      && 0 <= DataProcessor.Relevance(rec) <= 100
      && (r["wifi_required"] == Int(1) <==> DataProcessor.DetectWifi(rec))
      && (r["wifi_required"] == Int(0) <==> !DataProcessor.DetectWifi(rec))
      && r["priority_score"] == Int(DataProcessor.Relevance(rec) + 50 * r["wifi_required"].i)
  {
  }

  /** Preparing a record again recomputes the same values: the scorers do not read the keys
      the preparation writes. */
  lemma PrepareIdempotent(rec: Record)
    ensures PrepareCompany(PrepareCompany(rec)) == PrepareCompany(rec)
  {
    var relevance, wifi, priority := DataProcessor.Relevance(rec), if DataProcessor.DetectWifi(rec) then 1 else 0,
                                     DataProcessor.Priority(rec);
    ScoresUnchanged(rec, relevance, wifi, priority);
    WriteTwice(rec, relevance, wifi, priority);
  }

  /** Writing the scores leaves the scorers' results unchanged. */
  lemma ScoresUnchanged(rec: Record, relevance: int, wifi: int, priority: int)
    ensures var r := WriteScores(rec, relevance, wifi, priority);
      && DataProcessor.Relevance(r) == DataProcessor.Relevance(rec)
      && DataProcessor.DetectWifi(r) == DataProcessor.DetectWifi(rec)
      && DataProcessor.Priority(r) == DataProcessor.Priority(rec)
  {
    ScorersIgnoreScores(rec, relevance, wifi, priority);
  }

  /** The texts the scorers read do not include the keys they write. */
  lemma ScorersIgnoreScores(rec: Record, relevance: int, wifi: int, priority: int)
    ensures var r := WriteScores(rec, relevance, wifi, priority);
      DataProcessor.RelevanceText(r) == DataProcessor.RelevanceText(rec)
      && DataProcessor.WifiText(r) == DataProcessor.WifiText(rec)
  {
  }

  lemma WriteTwice(rec: Record, relevance: int, wifi: int, priority: int)
    ensures WriteScores(WriteScores(rec, relevance, wifi, priority), relevance, wifi, priority)
         == WriteScores(rec, relevance, wifi, priority)
  {
  }
}

/** `pages/01_crm_new.py`: the same two scorers, and an `add_company` that adds the WiFi
    bonus without the cap and defaults the sales status. */
module CrmNewPage {
  import opened PyValues
  import DataProcessor
  import MainApp

  /** `company_data.get('sales_status', 'New')`. */
  function SalesStatus(rec: Record): (v: Value)
    ensures "sales_status" in rec ==> v == rec["sales_status"]
    ensures "sales_status" !in rec ==> v == Str("New")
  {
    Get(rec, "sales_status", Str("New"))
  }

  /** Writes the computed values and the status into `rec`. */
  function WriteScores(rec: Record, relevance: int, wifi: int, priority: int, status: Value): (r: Record)
    ensures forall k :: k in rec && !MainApp.IsScoreKey(k) && k != "sales_status" ==> k in r && r[k] == rec[k]
    ensures forall k :: k in r ==> k in rec || MainApp.IsScoreKey(k) || k == "sales_status"
    ensures "picocela_relevance_score" in r && r["picocela_relevance_score"] == Int(relevance)
    ensures "wifi_required" in r && r["wifi_required"] == Int(wifi)
    ensures "priority_score" in r && r["priority_score"] == Int(priority)
    ensures "sales_status" in r && r["sales_status"] == status
  {
    MainApp.WriteScores(rec, relevance, wifi, priority)["sales_status" := status]
  }

  /** `add_company` before the API call: the priority is `relevance + (50 if wifi_required else 0)`,
      with no cap, and a missing sales status becomes "New". */
  function PrepareCompany(rec: Record): (r: Record)
    ensures forall k :: k in rec && !MainApp.IsScoreKey(k) && k != "sales_status" ==> k in r && r[k] == rec[k]
    ensures forall k :: k in r ==> k in rec || MainApp.IsScoreKey(k) || k == "sales_status"
    ensures "sales_status" in r && r["sales_status"] == SalesStatus(rec)
    ensures "picocela_relevance_score" in r && "wifi_required" in r && "priority_score" in r
  {
    var relevance := DataProcessor.Relevance(rec);
    var wifi := if DataProcessor.DetectWifi(rec) then 1 else 0;
    WriteScores(rec, relevance, wifi, relevance + (if wifi == 1 then 50 else 0), SalesStatus(rec))
  }

  /** Without the cap the priority still never exceeds 150, and it is the priority the
      shared `calculate_priority_score` computes: on every score key this page and
      `fusion_crm_main.py` write the same values. */
  lemma AgreesWithMainApp(rec: Record)
    ensures var r := PrepareCompany(rec);
      && r["priority_score"] == Int(DataProcessor.Priority(rec))
      && r["priority_score"].i <= 150
      && r["priority_score"] == MainApp.PrepareCompany(rec)["priority_score"]
      && r["picocela_relevance_score"] == MainApp.PrepareCompany(rec)["picocela_relevance_score"]
      && r["wifi_required"] == MainApp.PrepareCompany(rec)["wifi_required"]
  {
  }
}

=== FILE: company_management.dfy ===
/** `company_management_module.py`: the richer ENR scorer (31 keywords with the
    matched list, a construction bonus, fourteen WiFi indicators, source and size
    bonuses), the next-action table and the record preparation of `add_company`. */
module CompanyManagement {
  import opened Results
  import opened Text
  import opened Seqs
  import opened PyValues
  import opened Scoring
  import opened Tables

  /** The module's own 31-keyword `PICOCELA_KEYWORDS`: the shared 21 in the same order,
      followed by ten more. */
  const Keywords: seq<string> := PicoKeywords + MoreKeywords

  const MoreKeywords: seq<string> := [
    "infrastructure", "communication", "technology", "system",
    "device", "data", "cloud", "edge", "real-time", "remote"
  ]

  /** Each of these adds five points on top of the keyword score. */
  const ConstructionTerms: seq<string> := ["construction", "building", "contractor", "engineering"]

  /** The fourteen indicators of WiFi need, several of them multi-word. */
  const WifiIndicators: seq<string> := [
    "wifi", "wireless", "network", "connectivity", "mesh",
    "iot", "smart building", "construction tech", "digital construction",
    "site management", "remote monitoring", "sensor network",
    "communication system", "field connectivity"
  ]

  const LargeSizes: seq<string> := ["large", "1000+", "enterprise"]
  const MediumSizes: seq<string> := ["medium", "100-1000", "mid"]

  lemma KeywordsFolded()
    ensures LowerAll(Keywords) == Keywords
  {
    PicoKeywordsFolded();
    FoldedTable(MoreKeywords);
    LowerAllAppend(PicoKeywords, MoreKeywords);
  }

  lemma TablesDistinct()
    ensures Distinct(Keywords) && Distinct(ConstructionTerms)
  {
  }

  /** Folded space-join of name, website, notes, industry and description. */
  function FullText(rec: Record): string {
    Lower(Join(" ", [FieldText(rec, "company_name"), FieldText(rec, "website_url"),
                     FieldText(rec, "notes"), FieldText(rec, "industry"), FieldText(rec, "description")]))
  }

  /** Folded space-join of name, notes, industry and description (no website). */
  function WifiText(rec: Record): string {
    Lower(Join(" ", [FieldText(rec, "company_name"), FieldText(rec, "notes"),
                     FieldText(rec, "industry"), FieldText(rec, "description")]))
  }

  /** The keyword part of the relevance: ten per keyword plus five per construction term. */
  function RawRelevance(matched: seq<string>, text: string): int {
    10 * |matched| + 5 * |Found(ConstructionTerms, text)|
  }

  /** `calculate_picocela_relevance`: the capped score and the keywords matched, in table order.
      The source folds each keyword before the test; `MatchedAsWritten` shows that this changes
      nothing on this table, and `RelevanceCounts` states what score and list are. */
  function RelevanceWithMatches(rec: Record): (r: (int, seq<string>))
    ensures 0 <= r.0 <= 100
    ensures |r.1| <= |Keywords|
  {
    var matched := Found(Keywords, FullText(rec));
    (Min(RawRelevance(matched, FullText(rec)), 100), matched)
  }

  /** The score is ten per distinct keyword present plus five per construction term present,
      capped at 100; the matched list holds exactly the keywords present, in table order. */
  lemma RelevanceCounts(rec: Record)
    ensures RelevanceWithMatches(rec).0
         == Min(10 * |Present(Keywords, FullText(rec))| + 5 * |Present(ConstructionTerms, FullText(rec))|, 100)
    ensures forall k :: k in RelevanceWithMatches(rec).1 <==> k in Keywords && Contains(FullText(rec), k)
    ensures IsSubseq(RelevanceWithMatches(rec).1, Keywords)
  {
    var text := FullText(rec);
    TablesDistinct();
    FoundCount(Keywords, text);
    FoundCount(ConstructionTerms, text);
    FoundInOrder(Keywords, text);
  }

  /** The matched list is the one built with `keyword.lower() in full_text`. */
  lemma MatchedAsWritten(rec: Record)
    ensures RelevanceWithMatches(rec).1 == FoundFolded(Keywords, FullText(rec))
  {
    KeywordsFolded();
    FoundFoldedSame(Keywords, FullText(rec));
  }

  /** The relevance score alone. */
  function RelevanceScore(rec: Record): (r: int)
    ensures 0 <= r <= 100
  {
    RelevanceWithMatches(rec).0
  }

  /** The score is zero exactly when neither a keyword nor a construction term is present. */
  lemma RelevanceZero(rec: Record)
    ensures RelevanceScore(rec) == 0 <==>
      !Mentions(Keywords, FullText(rec)) && !Mentions(ConstructionTerms, FullText(rec))
  {
    RelevanceCounts(rec);
    MentionsPresent(Keywords, FullText(rec));
    MentionsPresent(ConstructionTerms, FullText(rec));
  }

  /** `detect_wifi_requirement`: one of the fourteen indicators occurs. */
  function DetectWifi(rec: Record): (b: bool)
    ensures b <==> Mentions(WifiIndicators, WifiText(rec))
  {
    AnyFound(WifiIndicators, WifiText(rec))
  }

  /** The website is never consulted for WiFi need. */
  lemma WifiIgnoresWebsite(rec: Record, website: Value)
    ensures DetectWifi(rec["website_url" := website]) == DetectWifi(rec)
  {
    assert WifiText(rec["website_url" := website]) == WifiText(rec);
  }

  /** `company_data.get('source', '')`, on which `.lower()` is called: `None` when the
      stored value is not a string, where Python raises `AttributeError`. */
  function SourceText(rec: Record): (r: Option<string>)
    ensures r.None? <==> "source" in rec && !rec["source"].Str?
  {
    if "source" !in rec then Some("")
    else match rec["source"]
      case Str(s) => Some(s)
      case _ => None
  }

  /** The folded text of `employees_count`. */
  function Employees(rec: Record): string {
    Lower(FieldText(rec, "employees_count"))
  }

  /** The size bonus: 15 for a large company, else 10 for a medium one, else 0. */
  function SizeBonus(large: bool, medium: bool): (b: int)
    ensures b == 15 <==> large
    ensures b == 10 <==> !large && medium
    ensures b == 0 <==> !large && !medium
  {
    if large then 15 else if medium then 10 else 0
  }

  /** The arithmetic of `calculate_priority_score` once the tests are decided. */
  function PriorityOf(relevance: int, wifi: bool, enr: bool, large: bool, medium: bool): (p: int)
    requires 0 <= relevance <= 100
    ensures relevance <= p <= 150
    ensures p <= relevance + 85
    ensures !wifi && !enr && !large && !medium ==> p == relevance
    ensures var sum := relevance + (if wifi then 50 else 0) + (if enr then 20 else 0) + SizeBonus(large, medium);
      (sum <= 150 ==> p == sum) && (sum > 150 ==> p == 150)
  {
    var priority := relevance;
    var priority := if wifi then priority + 50 else priority;
    var priority := if enr then priority + 20 else priority;
    Min(priority + SizeBonus(large, medium), 150)
  }

  /** `calculate_priority_score`: relevance, +50 for WiFi need, +20 for a source mentioning
      "enr", plus the size bonus, capped at 150. `None` where the source raises. */
  function Priority(rec: Record): (p: Option<int>)
    ensures p.Some? <==> SourceText(rec).Some?
    ensures p.Some? ==> RelevanceScore(rec) <= p.value <= 150
    ensures p.Some? ==> p.value == PriorityOf(RelevanceScore(rec), Mentions(WifiIndicators, WifiText(rec)),
                                              Contains(Lower(SourceText(rec).value), "enr"),
                                              Mentions(LargeSizes, Employees(rec)), Mentions(MediumSizes, Employees(rec)))
  {
    match SourceText(rec)
    case None => None
    case Some(source) =>
      Some(PriorityOf(RelevanceScore(rec), DetectWifi(rec), Contains(Lower(source), "enr"),
                      AnyFound(LargeSizes, Employees(rec)), AnyFound(MediumSizes, Employees(rec))))
  }

  /** The action recommended after each sales status. */
  const NextActions: map<string, string> := map[
    "New" := "初回メール送信",
    "Contacted" := "フォローアップメール（1週間後）",
    "Replied" := "オンラインミーティング設定",
    "Engaged" := "現場訪問・詳細ニーズ確認",
    "Qualified" := "提案書作成・カスタマイズ",
    "Proposal" := "社内検討状況確認",
    "Negotiation" := "条件調整・最終提案",
    "Won" := "契約履行・導入支援",
    "Lost" := "関係維持・将来機会確認",
    "Dormant" := "再活性化キャンペーン"
  ]

  /** `_suggest_next_action`: `action_map.get(status, '')`. */
  function NextAction(status: string): (a: string)
    ensures a != "" <==> status in SalesStatuses
    ensures status !in SalesStatuses ==> a == ""
  {
    NextActionsCoverStatuses();
    if status in NextActions then NextActions[status] else ""
  }

  /** The action table has an entry, never empty, for exactly the ten sales statuses. */
  lemma NextActionsCoverStatuses()
    ensures forall s :: s in NextActions <==> s in SalesStatuses
    ensures forall s :: s in NextActions ==> NextActions[s] != ""
  {
  }

  /** `1 if wifi_required else 0`. */
  function WifiFlag(rec: Record): (w: int)
    ensures w == 0 || w == 1
  {
    if DetectWifi(rec) then 1 else 0
  }

  /** The keys `add_company` writes before the API call. */
  predicate IsPreparedKey(k: string) {
    k in {"picocela_relevance_score", "keywords_matched", "wifi_required", "priority_score", "status", "source"}
  }

  /** Writes the computed scores and the status and source defaults into `rec`. */
  function WriteScores(rec: Record, relevance: int, matched: string, wifi: int, priority: int): (r: Record)
    ensures forall k :: k in rec && !IsPreparedKey(k) ==> k in r && r[k] == rec[k]
    ensures "picocela_relevance_score" in r && r["picocela_relevance_score"] == Int(relevance)
    ensures "keywords_matched" in r && r["keywords_matched"] == Str(matched)
    ensures "wifi_required" in r && r["wifi_required"] == Int(wifi)
    ensures "priority_score" in r && r["priority_score"] == Int(priority)
    ensures "status" in r && r["status"] == Get(rec, "status", Str("New"))
    ensures "source" in r && r["source"] == Get(rec, "source", Str("Manual"))
  {
    rec["picocela_relevance_score" := Int(relevance)]
       ["keywords_matched" := Str(matched)]
       ["wifi_required" := Int(wifi)]
       ["priority_score" := Int(priority)]
       ["status" := Get(rec, "status", Str("New"))]
       ["source" := Get(rec, "source", Str("Manual"))]
  }

  /** The record preparation of `add_company`: scores written, status and source defaulted
      only when absent, every other key kept. `None` where the priority computation raises. */
  function PrepareRecord(rec: Record): (r: Option<Record>)
    ensures r.Some? <==> SourceText(rec).Some?
    ensures r.Some? ==> forall k :: k in rec && !IsPreparedKey(k) ==> k in r.value && r.value[k] == rec[k]
    ensures r.Some? ==> "status" in r.value && r.value["status"] == Get(rec, "status", Str("New"))
    ensures r.Some? ==> "source" in r.value && r.value["source"] == Get(rec, "source", Str("Manual"))
  {
    match Priority(rec)
    case None => None
    case Some(priority) =>
      Some(WriteScores(rec, RelevanceWithMatches(rec).0, Join(",", RelevanceWithMatches(rec).1), WifiFlag(rec), priority))
  }

  /** The scores `add_company` writes: relevance in [0, 100], the comma-join of the matched
      keywords (each of which occurs in it), a 0/1 WiFi flag, and the priority computed
      from the record as given (before the source default). */
  lemma PreparedScores(rec: Record)
    requires SourceText(rec).Some?
    ensures var r := PrepareRecord(rec).value;
      && "picocela_relevance_score" in r && r["picocela_relevance_score"] == Int(RelevanceScore(rec))
      && "keywords_matched" in r && r["keywords_matched"] == Str(Join(",", RelevanceWithMatches(rec).1))
      && (forall k :: k in RelevanceWithMatches(rec).1 ==> Contains(r["keywords_matched"].s, k))
      && "wifi_required" in r && (r["wifi_required"] == Int(1) <==> Mentions(WifiIndicators, WifiText(rec)))
      && (r["wifi_required"] == Int(0) || r["wifi_required"] == Int(1))
      && "priority_score" in r && r["priority_score"] == Int(Priority(rec).value)
  {
    var matched := RelevanceWithMatches(rec).1;
    forall k | k in matched ensures Contains(Join(",", matched), k) {
      JoinContains(",", matched, k);
    }
  }
}

=== FILE: crm_complete.dfy ===
/** `pages/01_crm_complete.py`: the normalisation of the rows read from Google Sheets into
    the Japanese display table, and the score the add-company form shows. */
module CrmComplete {
  import opened Results
  import opened Text
  import opened Seqs
  import opened PyValues
  import opened Scoring
  import Tables

  // ---------------------------------------------------------------------------
  // Display vocabularies
  // ---------------------------------------------------------------------------

  const NeedDisplay: string := "✅ 必要"
  const NoNeedDisplay: string := "❌ 不要"
  const UnknownDisplay: string := "❓ 未確認"

  /** The nine statuses shown as they are: the sales statuses without "Dormant". */
  const DisplayStatuses: seq<string> := [
    "New", "Contacted", "Replied", "Engaged", "Qualified", "Proposal", "Negotiation", "Won", "Lost"
  ]

  /** Industry groups in the order they are tried: the first whose words occur wins. */
  const IndustryGroups: seq<(seq<string>, string)> := [
    (["construction", "building", "site"], "建設業"),
    (["manufacturing", "factory", "industrial"], "製造業"),
    (["software", "tech", "ai", "platform"], "IT・ソフトウェア"),
    (["healthcare", "medical", "hospital"], "医療・介護"),
    (["education", "school", "university"], "教育")
  ]

  const OtherIndustry: string := "その他"

  // ---------------------------------------------------------------------------
  // Per-field rules
  // ---------------------------------------------------------------------------

  /** `str(company.get('wifi_needs', '')).lower()`. */
  function WifiLevel(company: Record): string {
    Lower(Show(Get(company, "wifi_needs", Str(""))))
  }

  /** High or medium need is shown as needed, low as not needed, anything else as unknown. */
  function WifiDisplay(level: string): (d: string)
    ensures d == NeedDisplay <==> level == "high" || level == "medium"
    ensures d == NoNeedDisplay <==> level == "low"
    ensures d == UnknownDisplay <==> level != "high" && level != "medium" && level != "low"
  {
    if level == "high" || level == "medium" then NeedDisplay
    else if level == "low" then NoNeedDisplay
    else UnknownDisplay
  }

  /** A stored status is shown when it is one of the nine, and as "New" otherwise
      (a missing status, a number, or any other text). */
  function StatusDisplay(v: Value): (s: string)
    ensures s in DisplayStatuses
    ensures v == Str(s) || s == "New"
    ensures v.Str? && v.s in DisplayStatuses ==> s == v.s
  {
    if v.Str? && v.s in DisplayStatuses then v.s else "New"
  }

  /** Showing a shown status again changes nothing; every sales status but "Dormant" is shown
      as itself, and a dormant company is listed as new. */
  lemma StatusDisplayFixes(v: Value)
    ensures StatusDisplay(Str(StatusDisplay(v))) == StatusDisplay(v)
    ensures forall s :: s in Tables.SalesStatuses && s != "Dormant" ==> StatusDisplay(Str(s)) == s
    ensures StatusDisplay(Str("Dormant")) == "New"
  {
  }

  /** `f"{description} {tags}"`, each part folded. */
  function IndustryText(company: Record): string {
    Lower(Show(Get(company, "description", Str("")))) + " " + Lower(Show(Get(company, "tags", Str(""))))
  }

  /** Index of the first group whose words occur in `text`. */
  function FirstGroup(groups: seq<(seq<string>, string)>, text: string): (r: Option<nat>)
    ensures r.Some? ==> r.value < |groups| && Mentions(groups[r.value].0, text)
    ensures r.Some? ==> forall j :: 0 <= j < r.value ==> !Mentions(groups[j].0, text)
    ensures r.None? <==> forall j :: 0 <= j < |groups| ==> !Mentions(groups[j].0, text)
    decreases |groups|
  {
    if |groups| == 0 then None
    else if AnyFound(groups[0].0, text) then Some(0)
    else match FirstGroup(groups[1..], text)
      case None => None
      case Some(i) => Some(i + 1)
  }

  /** The industry label of the `if`/`elif` chain. */
  function Industry(text: string): (industry: string)
    ensures industry == OtherIndustry || exists i :: 0 <= i < |IndustryGroups| && industry == IndustryGroups[i].1
  {
    match FirstGroup(IndustryGroups, text)
    case None => OtherIndustry
    case Some(i) => IndustryGroups[i].1
  }

  /** The label is that of the first group mentioned, and "その他" exactly when none is. */
  lemma IndustryFirstMatch(text: string, i: nat)
    requires i < |IndustryGroups| && Mentions(IndustryGroups[i].0, text)
    requires forall j :: 0 <= j < i ==> !Mentions(IndustryGroups[j].0, text)
    ensures Industry(text) == IndustryGroups[i].1
  {
    var r := FirstGroup(IndustryGroups, text);
    assert r.Some?;
  }

  lemma IndustryOther(text: string)
    ensures Industry(text) == OtherIndustry <==> forall j :: 0 <= j < |IndustryGroups| ==> !Mentions(IndustryGroups[j].0, text)
  {
    var r := FirstGroup(IndustryGroups, text);
    if r.Some? {
      assert IndustryGroups[r.value].1 != OtherIndustry;
    }
  }

  /** `description[:100] + '...'` when `str(description)` is longer than 100 characters, else the
      description itself. `None` where a long non-string description cannot be sliced. */
  function Remarks(company: Record): (r: Option<Value>)
    ensures var d := Get(company, "description", Str(""));
      r.None? <==> |Show(d)| > 100 && !d.Str?
  {
    var d := Get(company, "description", Str(""));
    if |Show(d)| > 100 then
      if d.Str? then Some(Str(d.s[..100] + "...")) else None
    else Some(d)
  }

  /** A string description is kept when it fits, and otherwise becomes its first 100 characters
      followed by an ellipsis: never more than 103 characters, always a prefix of the original
      up to the ellipsis. */
  lemma RemarksOfText(company: Record, s: string)
    requires Get(company, "description", Str("")) == Str(s)
    ensures Remarks(company).Some? && Remarks(company).value.Str?
    ensures var m := Remarks(company).value.s;
      && |m| <= 103
      && (|s| <= 100 ==> m == s)
      && (|s| > 100 ==> |m| == 103 && m[..100] == s[..100] && m[100..] == "...")
  {
  }

  /** `created_at[:10]` when it is truthy, else today's date. `None` where a number cannot be sliced. */
  function Registered(company: Record, today: string): (r: Option<string>)
    ensures !Truthy(Get(company, "created_at", NoneV)) ==> r == Some(today)
    ensures r.None? <==> Get(company, "created_at", NoneV).Int? && Get(company, "created_at", NoneV).i != 0
    ensures r.Some? && Truthy(Get(company, "created_at", NoneV)) ==>
      |r.value| <= 10 && r.value <= company["created_at"].s
  {
    var v := Get(company, "created_at", NoneV);
    if !Truthy(v) then Some(today)
    else match v
      case Str(s) => Some(Take(s, 10))
      case _ => None
  }

  /** `int(v) if v else 0`: `None` where `int` rejects a string. */
  function Score(v: Value): (r: Option<int>)
    ensures !Truthy(v) ==> r == Some(0)
    ensures v.Int? ==> r == Some(v.i)
    ensures v.Str? && v.s != "" ==> r == ParseInt(v.s)
  {
    if !Truthy(v) then Some(0)
    else match v
      case Int(i) => Some(i)
      case Str(s) => ParseInt(s)
      case NoneV => Some(0)
  }

  /** A score written as an integer's decimal text reads back as that integer. */
  lemma ScoreOfRendered(n: int)
    ensures Score(Str(IntToString(n))) == Some(n)
  {
    ParseRendered(n);
  }

  /** `company.get('company_id', f"ID_{len(normalized)+1}")`: the fallback numbers rows from one. */
  function RowId(company: Record, index: nat): (v: Value)
    ensures "company_id" in company ==> v == company["company_id"]
    ensures "company_id" !in company ==> v == Str("ID_" + NatToString(index + 1))
  {
    Get(company, "company_id", Str("ID_" + NatToString(index + 1)))
  }

  /** Two rows without a stored id get different fallback ids. */
  lemma FallbackIdsDiffer(a: Record, i: nat, b: Record, j: nat)
    requires "company_id" !in a && "company_id" !in b && i != j
    ensures RowId(a, i) != RowId(b, j)
  {
    DigitsOfNat(i + 1);
    DigitsOfNat(j + 1);
    var x, y := "ID_" + NatToString(i + 1), "ID_" + NatToString(j + 1);
    assert x[3..] == NatToString(i + 1);
    assert y[3..] == NatToString(j + 1);
  }

  // ---------------------------------------------------------------------------
  // The normalised row
  // ---------------------------------------------------------------------------

  /** One row of the display table, field by field in the order of the source's dict. */
  datatype Row = Row(
    id: Value,                // ID
    name: Value,              // 企業名
    status: string,           // ステータス
    picoScore: int,           // PicoCELAスコア
    wifi: string,             // WiFi需要
    salesRep: string,         // 販売員
    email: Value,             // メール
    industry: string,         // 業界
    website: Value,           // ウェブサイト
    remarks: Value,           // 備考
    registered: string,       // 登録日
    contact: Value,           // 連絡先
    phone: Value,             // 電話番号
    priority: int,            // 優先度スコア
    tags: Value,              // タグ
    constructionFocus: Value  // 建設関連度
  )

  /** The parts of a row that can raise. */
  predicate Normalizable(company: Record, today: string) {
    && Score(Get(company, "picoCELA_relevance", NoneV)).Some?
    && Score(Get(company, "priority_score", NoneV)).Some?
    && Remarks(company).Some?
    && Registered(company, today).Some?
  }

  /** The display row of the `index`-th company; `None` where building it raises. */
  function NormalizeOne(company: Record, index: nat, today: string): (r: Option<Row>)
    ensures r.Some? <==> Normalizable(company, today)
    ensures r.Some? ==> r.value.status in DisplayStatuses && r.value.salesRep == "admin"
    ensures r.Some? ==> r.value.wifi in {NeedDisplay, NoNeedDisplay, UnknownDisplay}
    ensures r.Some? ==> r.value.id == RowId(company, index)
    ensures r.Some? ==> r.value.status == StatusDisplay(Get(company, "sales_status", Str("New")))
    ensures r.Some? ==> r.value.wifi == WifiDisplay(WifiLevel(company))
    ensures r.Some? ==> r.value.industry == Industry(IndustryText(company))
    ensures r.Some? ==> r.value.picoScore == Score(Get(company, "picoCELA_relevance", NoneV)).value
    ensures r.Some? ==> r.value.priority == Score(Get(company, "priority_score", NoneV)).value
    ensures r.Some? ==> r.value.remarks == Remarks(company).value
    ensures r.Some? ==> r.value.registered == Registered(company, today).value
    ensures r.Some? ==> r.value.name == Get(company, "company_name", Str("N/A"))
    ensures r.Some? ==> r.value.email == Get(company, "email", Str("")) && r.value.website == Get(company, "website", Str(""))
    ensures r.Some? ==> r.value.contact == Get(company, "contact_name", Str("")) && r.value.phone == Get(company, "phone", Str(""))
    ensures r.Some? ==> r.value.tags == Get(company, "tags", Str(""))
    ensures r.Some? ==> r.value.constructionFocus == Get(company, "construction_focus", Str("Low"))
  {
    if !Normalizable(company, today) then None
    else Some(Row(
      RowId(company, index),
      Get(company, "company_name", Str("N/A")),
      StatusDisplay(Get(company, "sales_status", Str("New"))),
      Score(Get(company, "picoCELA_relevance", NoneV)).value,
      WifiDisplay(WifiLevel(company)),
      "admin",
      Get(company, "email", Str("")),
      Industry(IndustryText(company)),
      Get(company, "website", Str("")),
      Remarks(company).value,
      Registered(company, today).value,
      Get(company, "contact_name", Str("")),
      Get(company, "phone", Str("")),
      Score(Get(company, "priority_score", NoneV)).value,
      Get(company, "tags", Str("")),
      Get(company, "construction_focus", Str("Low"))))
  }

  /** The row builder for one call of the normalisation. */
  function RowMaker(today: string): (Record, nat) -> Option<Row> {
    (company: Record, index: nat) => NormalizeOne(company, index, today)
  }

  /** `normalize_google_sheets_data`: one row per company, in order, the `i`-th numbered `i + 1`
      when it has no id; `None` when any company's row raises, since nothing catches it. */
  method Normalize(companies: seq<Record>, today: string) returns (r: Option<seq<Row>>)
    ensures r.Some? <==> forall i :: 0 <= i < |companies| ==> Normalizable(companies[i], today)
    ensures r.Some? ==> |r.value| == |companies|
    ensures r.Some? ==> forall i :: 0 <= i < |companies| ==> Some(r.value[i]) == NormalizeOne(companies[i], i, today)
  {
    r := TryMapIndexedLoop(RowMaker(today), companies);
    TryMapIndexedSpec(RowMaker(today), companies);
  }

  // ---------------------------------------------------------------------------
  // The add-company form
  // ---------------------------------------------------------------------------

  /** Twelve points each when found in the folded description. */
  const FormWifiKeywords: seq<string> := [
    "wifi", "wireless", "network", "mesh", "connectivity", "internet", "iot", "smart", "automation"
  ]

  /** Ten points each when found in the folded description. */
  const FormConstructionKeywords: seq<string> := ["construction", "building", "site", "facility", "warehouse", "factory"]

  const IndustryBonus: map<string, nat> := map[
    "建設業" := 25, "製造業" := 20, "物流業" := 18, "不動産業" := 15, "IT・ソフトウェア" := 10, "金融業" := 5
  ]

  const WifiNeedBonus: map<string, nat> := map["High" := 20, "Medium" := 10, "Low" := 0]

  /** `dict.get(key, 0)`. */
  function Bonus(table: map<string, nat>, key: string): nat {
    if key in table then table[key] else 0
  }

  /** The uncapped keyword and bonus sum of the form. */
  function RawFormScore(description: string, industry: string, wifiNeeds: string): nat {
    12 * |Found(FormWifiKeywords, Lower(description))|
      + 10 * |Found(FormConstructionKeywords, Lower(description))|
      + Bonus(IndustryBonus, industry) + Bonus(WifiNeedBonus, wifiNeeds)
  }

  /** The relevance and priority shown after submitting the form: the sum capped at 100, and
      ten more, again capped at 100. Nothing is computed without a company name. */
  function AddFormScores(companyName: string, description: string, industry: string, wifiNeeds: string)
    : (r: Option<(int, int)>)
    ensures r.Some? <==> companyName != ""
    ensures r.Some? ==> 0 <= r.value.0 <= 100 && r.value.0 <= r.value.1 <= 100
    ensures r.Some? ==> r.value.0 == Min(RawFormScore(description, industry, wifiNeeds), 100)
    ensures r.Some? ==> r.value.1 == Min(r.value.0 + 10, 100)
  {
    if companyName == "" then None
    else
      var score := Min(RawFormScore(description, industry, wifiNeeds), 100);
      Some((score, Min(score + 10, 100)))
  }

  /** The form's keyword tables have no repetitions. */
  lemma FormTablesDistinct()
    ensures Distinct(FormWifiKeywords) && Distinct(FormConstructionKeywords)
  {
  }

  /** The sum is twelve per distinct WiFi keyword present, ten per construction keyword present,
      plus the industry and need bonuses. */
  lemma FormScoreCounts(description: string, industry: string, wifiNeeds: string)
    ensures RawFormScore(description, industry, wifiNeeds)
         == 12 * |Present(FormWifiKeywords, Lower(description))|
          + 10 * |Present(FormConstructionKeywords, Lower(description))|
          + Bonus(IndustryBonus, industry) + Bonus(WifiNeedBonus, wifiNeeds)
  {
    FormTablesDistinct();
    FoundCount(FormWifiKeywords, Lower(description));
    FoundCount(FormConstructionKeywords, Lower(description));
  }

  /** With no keyword, no industry bonus and no more than low need, the relevance is 0 and the
      priority 10. */
  lemma FormScoreFloor(companyName: string, description: string, industry: string, wifiNeeds: string)
    requires companyName != ""
    requires !Mentions(FormWifiKeywords, Lower(description)) && !Mentions(FormConstructionKeywords, Lower(description))
    requires industry !in IndustryBonus && wifiNeeds != "High" && wifiNeeds != "Medium"
    ensures AddFormScores(companyName, description, industry, wifiNeeds) == Some((0, 10))
  {
    FoundNone(FormWifiKeywords, Lower(description));
    FoundNone(FormConstructionKeywords, Lower(description));
    assert RawFormScore(description, industry, wifiNeeds) == 0;
  }

  /** The form shows WiFi need for "High" and "Medium" only; a company entered with one of
      the three levels is shown the same way by the normalisation of the list. */
  function FormWifiDisplay(wifiNeeds: string): (d: string)
    ensures d == NeedDisplay <==> wifiNeeds == "High" || wifiNeeds == "Medium"
    ensures d != NeedDisplay ==> d == NoNeedDisplay
  {
    if wifiNeeds == "High" || wifiNeeds == "Medium" then NeedDisplay else NoNeedDisplay
  }

  lemma FormAndListAgree(company: Record, level: string)
    requires level in ["High", "Medium", "Low"]
    requires Get(company, "wifi_needs", Str("")) == Str(level)
    ensures WifiDisplay(WifiLevel(company)) == FormWifiDisplay(level)
  {
  }
}

=== FILE: data_processor.dfy ===
/** `crm_modules/crm_data_processor.py`: the ENR keyword scorers and the import
    pipeline that maps a spreadsheet's columns onto CRM fields and scores every row. */
module DataProcessor {
  import opened Results
  import opened Text
  import opened Seqs
  import opened PyValues
  import opened Scoring
  import opened Tables

  // ---------------------------------------------------------------------------
  // ENRDataProcessor
  // ---------------------------------------------------------------------------

  /** The seven indicators `detect_wifi_requirement` looks for. */
  const EnrWifiIndicators: seq<string> := [
    "wifi", "wireless", "network", "connectivity",
    "iot", "smart building", "construction tech"
  ]

  /** Folded space-join of name, website, notes and industry. */
  function RelevanceText(rec: Record): string {
    Lower(Join(" ", [FieldText(rec, "company_name"), FieldText(rec, "website_url"),
                     FieldText(rec, "notes"), FieldText(rec, "industry")]))
  }

  /** Folded space-join of name, notes and industry: the website is not part of it. */
  function WifiText(rec: Record): string {
    Lower(Join(" ", [FieldText(rec, "company_name"), FieldText(rec, "notes"), FieldText(rec, "industry")]))
  }

  /** `calculate_picocela_relevance`: ten points per keyword present, capped at 100. */
  function Relevance(rec: Record): (r: int)
    ensures 0 <= r <= 100 && r % 10 == 0
    ensures r == Min(10 * |Present(PicoKeywords, RelevanceText(rec))|, 100)
    ensures r == 0 <==> !Mentions(PicoKeywords, RelevanceText(rec))
  {
    PicoKeywordsDistinct();
    TenPerKeyword(PicoKeywords, RelevanceText(rec))
  }

  /** The loop as written tests `keyword.lower() in full_text`; the table has no capitals,
      so that is the score above. */
  lemma RelevanceAsWritten(rec: Record)
    ensures Relevance(rec) == Min(10 * |FoundFolded(PicoKeywords, RelevanceText(rec))|, 100)
  {
    PicoKeywordsFolded();
    PicoKeywordsDistinct();
    FoundFoldedSame(PicoKeywords, RelevanceText(rec));
  }

  /** `detect_wifi_requirement`: some indicator occurs in the name, notes or industry. */
  function DetectWifi(rec: Record): (b: bool)
    ensures b <==> Mentions(EnrWifiIndicators, WifiText(rec))
  {
    AnyFound(EnrWifiIndicators, WifiText(rec))
  }

  /** The website is never consulted for WiFi need. */
  lemma WifiIgnoresWebsite(rec: Record, website: Value)
    ensures DetectWifi(rec["website_url" := website]) == DetectWifi(rec)
  {
    assert WifiText(rec["website_url" := website]) == WifiText(rec);
  }

  /** `calculate_priority_score`: relevance plus 50 for WiFi need. The cap at 150
      never bites, because relevance is at most 100. */
  function Priority(rec: Record): (p: int)
    ensures p == Relevance(rec) + (if DetectWifi(rec) then 50 else 0)
    ensures Relevance(rec) <= p <= 150
  {
    Min(Relevance(rec) + (if DetectWifi(rec) then 50 else 0), 150)
  }

  // ---------------------------------------------------------------------------
  // DataImportProcessor.suggest_column_mapping
  // ---------------------------------------------------------------------------

  /** `any(pattern.lower() in col.lower() for pattern in patterns)`. */
  predicate ColumnMatches(col: string, patterns: seq<string>) {
    AnyFound(LowerAll(patterns), Lower(col))
  }

  /** Index of the first file column, in file order, that matches one of the patterns. */
  function FirstMatch(cols: seq<string>, patterns: seq<string>): (r: Option<nat>)
    ensures r.Some? ==> r.value < |cols| && ColumnMatches(cols[r.value], patterns)
    ensures r.Some? ==> forall j :: 0 <= j < r.value ==> !ColumnMatches(cols[j], patterns)
    ensures r.None? <==> forall j :: 0 <= j < |cols| ==> !ColumnMatches(cols[j], patterns)
    decreases |cols|
  {
    if |cols| == 0 then None
    else if ColumnMatches(cols[0], patterns) then Some(0)
    else
      match FirstMatch(cols[1..], patterns)
      case None => None
      case Some(j) => Some(j + 1)
  }

  /** Binds one rule's fusion column to its first matching file column, if there is one. */
  function Bind(m: map<string, string>, rule: (string, seq<string>), cols: seq<string>): map<string, string> {
    match FirstMatch(cols, rule.1)
    case Some(j) => m[rule.0 := cols[j]]
    case None => m
  }

  /** Every suggested file column is a column of the file. */
  ghost predicate FromFile(cols: seq<string>, m: map<string, string>) {
    forall fc :: fc in m ==> m[fc] in cols
  }

  /** Only fusion columns named by a rule are suggested. */
  ghost predicate FromRules(rules: seq<(string, seq<string>)>, m: map<string, string>) {
    forall fc :: fc in m ==> fc in RuleNames(rules)
  }

  /** A rule with a matching column is bound to its first match. */
  ghost predicate BindsMatched(rules: seq<(string, seq<string>)>, cols: seq<string>, m: map<string, string>) {
    forall i :: 0 <= i < |rules| && FirstMatch(cols, rules[i].1).Some? ==>
      rules[i].0 in m && m[rules[i].0] == cols[FirstMatch(cols, rules[i].1).value]
  }

  /** A rule with no matching column is left out. */
  ghost predicate SkipsUnmatched(rules: seq<(string, seq<string>)>, cols: seq<string>, m: map<string, string>) {
    forall i :: 0 <= i < |rules| && FirstMatch(cols, rules[i].1).None? ==> rules[i].0 !in m
  }

  /** What the loop over the mapping rules promises once it has processed `rules`. */
  ghost predicate Suggests(rules: seq<(string, seq<string>)>, cols: seq<string>, m: map<string, string>) {
    FromFile(cols, m) && FromRules(rules, m) && BindsMatched(rules, cols, m) && SkipsUnmatched(rules, cols, m)
  }

  lemma BindFromFile(cols: seq<string>, m: map<string, string>, rule: (string, seq<string>))
    requires FromFile(cols, m)
    ensures FromFile(cols, Bind(m, rule, cols))
  {
  }

  lemma BindFromRules(rules: seq<(string, seq<string>)>, cols: seq<string>, m: map<string, string>)
    requires |rules| > 0 && FromRules(rules[..|rules| - 1], m)
    ensures FromRules(rules, Bind(m, rules[|rules| - 1], cols))
  {
    var n := |rules| - 1;
    assert RuleNames(rules) == RuleNames(rules[..n]) + [rules[n].0];
  }

  /** The rule being bound has a name no earlier rule has, so earlier bindings stay. */
  lemma BindMatched(rules: seq<(string, seq<string>)>, cols: seq<string>, m: map<string, string>)
    requires |rules| > 0 && Distinct(RuleNames(rules))
    requires BindsMatched(rules[..|rules| - 1], cols, m)
    ensures BindsMatched(rules, cols, Bind(m, rules[|rules| - 1], cols))
  {
    var n := |rules| - 1;
    var r := Bind(m, rules[n], cols);
    forall i | 0 <= i < |rules| && FirstMatch(cols, rules[i].1).Some?
      ensures rules[i].0 in r && r[rules[i].0] == cols[FirstMatch(cols, rules[i].1).value]
    {
      if i < n {
        assert rules[..n][i] == rules[i];
        assert RuleNames(rules)[i] == rules[i].0;
      }
    }
  }

  lemma BindUnmatched(rules: seq<(string, seq<string>)>, cols: seq<string>, m: map<string, string>)
    requires |rules| > 0 && Distinct(RuleNames(rules))
    requires FromRules(rules[..|rules| - 1], m)
    requires SkipsUnmatched(rules[..|rules| - 1], cols, m)
    ensures SkipsUnmatched(rules, cols, Bind(m, rules[|rules| - 1], cols))
  {
    var n := |rules| - 1;
    forall i | 0 <= i < n ensures rules[..n][i] == rules[i] && rules[i].0 != rules[n].0 {
      assert RuleNames(rules)[i] == rules[i].0;
    }
    assert rules[n].0 !in m by {
      forall i | 0 <= i < n ensures RuleNames(rules[..n])[i] != rules[n].0 {
        assert RuleNames(rules)[i] == rules[i].0;
      }
    }
  }

  /** The loop over the mapping rules: each fusion column is bound to its first matching file column.
      `rules` stands for a dict, so its names are distinct. */
  function SuggestMapping(rules: seq<(string, seq<string>)>, cols: seq<string>): (m: map<string, string>)
    requires Distinct(RuleNames(rules))
    ensures Suggests(rules, cols, m)
    decreases |rules|
  {
    if |rules| == 0 then map[]
    else
      var front := rules[..|rules| - 1];
      assert RuleNames(front) == RuleNames(rules)[..|rules| - 1];
      var m := SuggestMapping(front, cols);
      BindFromFile(cols, m, rules[|rules| - 1]);
      BindFromRules(rules, cols, m);
      BindMatched(rules, cols, m);
      BindUnmatched(rules, cols, m);
      Bind(m, rules[|rules| - 1], cols)
  }

  /** `suggest_column_mapping` over the fixed mapping rules. */
  function SuggestColumnMapping(cols: seq<string>): (m: map<string, string>)
    ensures forall fc :: fc in m ==> m[fc] in cols
    ensures forall fc :: fc in m ==> fc in RuleNames(MappingRules)
    ensures forall i :: 0 <= i < |MappingRules| && FirstMatch(cols, MappingRules[i].1).Some? ==>
      MappingRules[i].0 in m && m[MappingRules[i].0] == cols[FirstMatch(cols, MappingRules[i].1).value]
    ensures forall i :: 0 <= i < |MappingRules| && FirstMatch(cols, MappingRules[i].1).None? ==>
      MappingRules[i].0 !in m
  {
    MappingRuleNamesDistinct();
    SuggestMapping(MappingRules, cols)
  }

  // ---------------------------------------------------------------------------
  // DataImportProcessor scorers
  // ---------------------------------------------------------------------------

  /** The fields an import scorer joins without `str()`: each is a string or absent.
      Python's `' '.join` raises `TypeError` on any other value; the preview only ever
      passes strings. */
  predicate TextFields(rec: Record) {
    && ("company_name" in rec ==> rec["company_name"].Str?)
    && ("notes" in rec ==> rec["notes"].Str?)
    && ("industry" in rec ==> rec["industry"].Str?)
  }

  /** Folded space-join of name, notes and industry of an imported row. */
  function ImportText(rec: Record): string {
    Lower(Join(" ", [FieldText(rec, "company_name"), FieldText(rec, "notes"), FieldText(rec, "industry")]))
  }

  /** The indicator loop of `detect_wifi_need_from_data` over an already joined text. */
  function WifiNeedOfText(text: string): (w: int)
    ensures w == 0 || w == 1
    ensures w == 1 <==> Mentions(ImportWifiIndicators, text)
  {
    if AnyFound(ImportWifiIndicators, text) then 1 else 0
  }

  /** The keyword loop of `calculate_picocela_relevance_from_data` over an already joined text. */
  function RelevanceOfText(text: string): (r: int)
    ensures 0 <= r <= 100
    ensures forall p :: p in ScoringKeywords && Contains(text, p.0) ==> r >= Min(p.1, 100)
    ensures r == 0 <==> forall p :: p in ScoringKeywords ==> !Contains(text, p.0)
  {
    ScoringWeightsPositive();
    CappedWeight(ScoringKeywords, text, 100)
  }

  /** `detect_wifi_need_from_data`: 1 when one of the thirteen indicators occurs, else 0. */
  function WifiNeedFromData(rec: Record): (w: int)
    requires TextFields(rec)
    ensures w == 0 || w == 1
    ensures w == 1 <==> Mentions(ImportWifiIndicators, ImportText(rec))
  {
    WifiNeedOfText(ImportText(rec))
  }

  /** `calculate_picocela_relevance_from_data`: the weights of the keywords present, capped at 100. */
  function RelevanceFromData(rec: Record): (r: int)
    requires TextFields(rec)
    ensures 0 <= r <= 100
    ensures forall p :: p in ScoringKeywords && Contains(ImportText(rec), p.0) ==> r >= Min(p.1, 100)
    ensures r == 0 <==> forall p :: p in ScoringKeywords ==> !Contains(ImportText(rec), p.0)
  {
    RelevanceOfText(ImportText(rec))
  }

  /** The relevance of an imported row is the total weight of the scoring keywords
      its text contains, capped at 100. */
  lemma RelevanceFromDataValue(rec: Record)
    requires TextFields(rec)
    ensures RelevanceFromData(rec) == Min(TotalWeight(Filter(PairHit(ImportText(rec)), ScoringKeywords)), 100)
  {
    ScoringWeightsPositive();
    CappedWeightIsTotal(ScoringKeywords, ImportText(rec), 100);
  }

  /** The relevance the import stored in a row, which the source adds to (an integer or absent). */
  predicate HasIntRelevance(rec: Record) {
    "picocela_relevance_score" in rec ==> rec["picocela_relevance_score"].Int?
  }

  function BaseScore(rec: Record): int
    requires HasIntRelevance(rec)
  {
    if "picocela_relevance_score" in rec then rec["picocela_relevance_score"].i else 0
  }

  /** The three bonuses of `calculate_priority_from_data`, each 0 when its condition fails. */
  function WifiBonus(rec: Record): nat { if Get(rec, "wifi_required", Int(0)) == Int(1) then 50 else 0 }
  function EmailBonus(rec: Record): nat { if Truthy(Get(rec, "email", NoneV)) then 10 else 0 }
  function WebsiteBonus(rec: Record): nat { if Truthy(Get(rec, "website_url", NoneV)) then 5 else 0 }

  /** `calculate_priority_from_data`. */
  function PriorityFromData(rec: Record): (p: int)
    requires HasIntRelevance(rec)
    ensures p <= 150
    ensures Min(BaseScore(rec), 150) <= p <= Min(BaseScore(rec) + 65, 150)
    ensures BaseScore(rec) + WifiBonus(rec) + EmailBonus(rec) + WebsiteBonus(rec) <= 150 ==>
      p == BaseScore(rec) + WifiBonus(rec) + EmailBonus(rec) + WebsiteBonus(rec)
    ensures BaseScore(rec) + WifiBonus(rec) + EmailBonus(rec) + WebsiteBonus(rec) > 150 ==> p == 150
  {
    var score := BaseScore(rec);
    var score := if Get(rec, "wifi_required", Int(0)) == Int(1) then score + 50 else score;
    var score := if Truthy(Get(rec, "email", NoneV)) then score + 10 else score;
    var score := if Truthy(Get(rec, "website_url", NoneV)) then score + 5 else score;
    Min(score, 150)
  }

  // ---------------------------------------------------------------------------
  // DataImportProcessor.create_import_preview
  // ---------------------------------------------------------------------------

  /** A cell of the uploaded frame: pandas NaN, or a value already rendered with `str`. */
  datatype FrameCell = NaN | Val(text: string)

  /** The uploaded table: its column names and its rows keyed by column name.
      In a pandas frame every row carries every column. */
  datatype Frame = Frame(columns: seq<string>, rows: seq<map<string, FrameCell>>)

  function CellText(c: FrameCell): string {
    match c
    case NaN => ""
    case Val(t) => t
  }

  /** The mapped columns of one row, NaN turned into `''`. Fusion columns whose
      file column is not in the frame are left out. */
  function MappedFields(columns: seq<string>, mapping: map<string, string>, row: map<string, FrameCell>): (r: Record)
    ensures forall fc :: fc in r <==> fc in mapping && mapping[fc] in columns && mapping[fc] in row
    ensures forall fc :: fc in r ==> r[fc] == Str(CellText(row[mapping[fc]]))
    ensures TextFields(r)
  {
    map fc | fc in mapping && mapping[fc] in columns && mapping[fc] in row :: Str(CellText(row[mapping[fc]]))
  }

  /** A row survives when its mapped company name is present and non-empty. */
  predicate Keeps(columns: seq<string>, mapping: map<string, string>, row: map<string, FrameCell>) {
    Truthy(Get(MappedFields(columns, mapping, row), "company_name", NoneV))
  }

  /** The keys the preview writes after copying the mapped columns. */
  predicate IsDerivedKey(k: string) {
    k in {"wifi_required", "picocela_relevance_score", "priority_score", "sales_status", "source"}
  }

  /** Two rows that agree on the four keys `calculate_priority_from_data` reads get the same priority. */
  lemma PriorityReadsFourKeys(a: Record, b: Record)
    requires HasIntRelevance(a) && HasIntRelevance(b)
    requires Get(a, "picocela_relevance_score", Int(0)) == Get(b, "picocela_relevance_score", Int(0))
    requires Get(a, "wifi_required", Int(0)) == Get(b, "wifi_required", Int(0))
    requires Get(a, "email", NoneV) == Get(b, "email", NoneV)
    requires Get(a, "website_url", NoneV) == Get(b, "website_url", NoneV)
    ensures PriorityFromData(a) == PriorityFromData(b)
  {
    assert BaseScore(a) == BaseScore(b);
  }

  /** The WiFi flag the preview stores: the detected need, or 0 when detection is switched off. */
  function AutoWifi(fields: Record, on: bool): (w: int)
    ensures w == 0 || w == 1
    ensures w == 1 <==> on && Mentions(ImportWifiIndicators, ImportText(fields))
  {
    if on then WifiNeedOfText(ImportText(fields)) else 0
  }

  /** The relevance the preview stores: the computed score, or 0 when scoring is switched off. */
  function AutoRelevance(fields: Record, on: bool): (r: int)
    ensures 0 <= r <= 100
    ensures r == 0 <==> !on || forall p :: p in ScoringKeywords ==> !Contains(ImportText(fields), p.0)
  {
    if on then RelevanceOfText(ImportText(fields)) else 0
  }

  /** On a row whose text fields are strings, as every preview row is, the automatic
      scores are exactly the two import scorers. */
  lemma AutoScoresAreScorers(fields: Record, on: bool)
    requires TextFields(fields)
    ensures AutoWifi(fields, on) == (if on then WifiNeedFromData(fields) else 0)
    ensures AutoRelevance(fields, on) == (if on then RelevanceFromData(fields) else 0)
  {
  }

  /** Setting the WiFi flag does not change the text the relevance reads. */
  lemma ImportTextIgnoresWifi(rec: Record, v: Value)
    ensures ImportText(rec["wifi_required" := v]) == ImportText(rec)
  {
    assert FieldText(rec["wifi_required" := v], "company_name") == FieldText(rec, "company_name");
    assert FieldText(rec["wifi_required" := v], "notes") == FieldText(rec, "notes");
    assert FieldText(rec["wifi_required" := v], "industry") == FieldText(rec, "industry");
  }

  /** The automatic WiFi flag and relevance of one surviving row (0 when switched off).
      The relevance is computed after the flag is stored, on a text the flag does not touch. */
  function Scored(fields: Record, autoWifi: bool, autoScore: bool): (r: Record)
    ensures "wifi_required" in r && "picocela_relevance_score" in r
    ensures forall k :: k in fields ==> k in r
    ensures forall k :: k in fields && !IsDerivedKey(k) ==> r[k] == fields[k]
    ensures r["wifi_required"] == Int(AutoWifi(fields, autoWifi))
    ensures r["picocela_relevance_score"] == Int(AutoRelevance(fields["wifi_required" := Int(AutoWifi(fields, autoWifi))], autoScore))
  {
    fields["wifi_required" := Int(AutoWifi(fields, autoWifi))]
          ["picocela_relevance_score" := Int(AutoRelevance(fields["wifi_required" := Int(AutoWifi(fields, autoWifi))], autoScore))]
  }

  /** Scoring and defaulting of one surviving row: the copied columns stay, the status starts as "New".
      `PrepareScores` states the derived columns. */
  function Prepare(fields: Record, autoWifi: bool, autoScore: bool): (r: Record)
    ensures forall k :: k in fields && !IsDerivedKey(k) ==> k in r && r[k] == fields[k]
    ensures "sales_status" in r && r["sales_status"] == Str("New")
  {
    var scored := Scored(fields, autoWifi, autoScore);
    scored["priority_score" := Int(PriorityFromData(scored))]
          ["sales_status" := Str("New")]
          ["source" := Get(fields, "source", Str("Data Import"))]
  }

  /** The derived columns of a preview row: the WiFi flag and relevance (0 when switched off),
      the priority computed from the row itself, and the source defaulting to "Data Import". */
  lemma PrepareScores(fields: Record, autoWifi: bool, autoScore: bool)
    ensures var r := Prepare(fields, autoWifi, autoScore);
      && "source" in r && r["source"] == Get(fields, "source", Str("Data Import"))
      && "wifi_required" in r && (r["wifi_required"] == Int(0) || r["wifi_required"] == Int(1))
      && (!autoWifi ==> r["wifi_required"] == Int(0))
      && "picocela_relevance_score" in r && r["picocela_relevance_score"].Int?
      && 0 <= r["picocela_relevance_score"].i <= 100
      && (!autoScore ==> r["picocela_relevance_score"] == Int(0))
      && HasIntRelevance(r)
      && "priority_score" in r && r["priority_score"] == Int(PriorityFromData(r))
  {
    var scored := Scored(fields, autoWifi, autoScore);
    var r := Prepare(fields, autoWifi, autoScore);
    PriorityReadsFourKeys(r, scored);
  }

  /** The preview rows, in input order, of the given rows. */
  function PrepareAll(columns: seq<string>, mapping: map<string, string>, rows: seq<map<string, FrameCell>>,
                      autoWifi: bool, autoScore: bool): (r: seq<Record>)
    ensures |r| == |rows|
  {
    Map(PrepareRow(columns, mapping, autoWifi, autoScore), rows)
  }

  /** The preview row of one input row, as a function value for `Map`. */
  function PrepareRow(columns: seq<string>, mapping: map<string, string>, autoWifi: bool, autoScore: bool)
    : map<string, FrameCell> -> Record
  {
    row => Prepare(MappedFields(columns, mapping, row), autoWifi, autoScore)
  }

  /** The survivor test as a function value, for `Filter`. */
  function Survives(columns: seq<string>, mapping: map<string, string>): map<string, FrameCell> -> bool {
    row => Keeps(columns, mapping, row)
  }

  /** One more row of the frame adds its preview row exactly when it survives. */
  lemma PreviewStep(columns: seq<string>, mapping: map<string, string>, rows: seq<map<string, FrameCell>>,
                    i: nat, autoWifi: bool, autoScore: bool)
    requires i < |rows|
    ensures PrepareAll(columns, mapping, Filter(Survives(columns, mapping), rows[..i + 1]), autoWifi, autoScore)
         == PrepareAll(columns, mapping, Filter(Survives(columns, mapping), rows[..i]), autoWifi, autoScore)
            + (if Keeps(columns, mapping, rows[i])
               then [Prepare(MappedFields(columns, mapping, rows[i]), autoWifi, autoScore)] else [])
  {
    var keep := Survives(columns, mapping);
    assert rows[..i + 1] == rows[..i] + [rows[i]];
    FilterSnoc(keep, rows[..i], rows[i]);
    MapSnoc(PrepareRow(columns, mapping, autoWifi, autoScore), Filter(keep, rows[..i]), rows[i]);
  }

  /** Every preview row of surviving rows keeps its company name and starts as "New". */
  lemma PreparedRowsNamed(columns: seq<string>, mapping: map<string, string>,
                          rows: seq<map<string, FrameCell>>, autoWifi: bool, autoScore: bool)
    requires forall j :: 0 <= j < |rows| ==> Keeps(columns, mapping, rows[j])
    ensures forall k :: 0 <= k < |rows| ==>
      var r := PrepareAll(columns, mapping, rows, autoWifi, autoScore)[k];
      "company_name" in r && Truthy(r["company_name"]) && "sales_status" in r && r["sales_status"] == Str("New")
  {
    assert !IsDerivedKey("company_name");
  }

  /** `create_import_preview`: one scored record per row with a company name, in input order. */
  method CreateImportPreview(df: Frame, mapping: map<string, string>, autoWifi: bool, autoScore: bool)
    returns (preview: seq<Record>)
    ensures preview == PrepareAll(df.columns, mapping, Filter(Survives(df.columns, mapping), df.rows), autoWifi, autoScore)
    ensures |preview| <= |df.rows|
    ensures forall k :: 0 <= k < |preview| ==>
      "company_name" in preview[k] && Truthy(preview[k]["company_name"]) &&
      "sales_status" in preview[k] && preview[k]["sales_status"] == Str("New")
  {
    preview := [];
    var i := 0;
    while i < |df.rows|
      invariant 0 <= i <= |df.rows|
      invariant preview == PrepareAll(df.columns, mapping, Filter(Survives(df.columns, mapping), df.rows[..i]), autoWifi, autoScore)
    {
      var fields := MappedFields(df.columns, mapping, df.rows[i]);
      PreviewStep(df.columns, mapping, df.rows, i, autoWifi, autoScore);
      assert Keeps(df.columns, mapping, df.rows[i]) == Truthy(Get(fields, "company_name", NoneV));
      if Truthy(Get(fields, "company_name", NoneV)) {
        preview := preview + [Prepare(fields, autoWifi, autoScore)];
      }
      i := i + 1;
    }
    assert df.rows[..i] == df.rows;
    SurvivorsNamed(df.columns, mapping, df.rows, autoWifi, autoScore);
  }

  /** The preview rows of the survivors all have a company name and status "New". */
  lemma SurvivorsNamed(columns: seq<string>, mapping: map<string, string>,
                       rows: seq<map<string, FrameCell>>, autoWifi: bool, autoScore: bool)
    ensures var preview := PrepareAll(columns, mapping, Filter(Survives(columns, mapping), rows), autoWifi, autoScore);
      forall k :: 0 <= k < |preview| ==>
        "company_name" in preview[k] && Truthy(preview[k]["company_name"]) &&
        "sales_status" in preview[k] && preview[k]["sales_status"] == Str("New")
  {
    var kept := Filter(Survives(columns, mapping), rows);
    assert forall j :: 0 <= j < |kept| ==> Keeps(columns, mapping, kept[j]);
    PreparedRowsNamed(columns, mapping, kept, autoWifi, autoScore);
  }
}

=== FILE: foundation.dfy ===
/** Optional values and outcomes that carry an error message. */
module Results {

  datatype Option<+T> = None | Some(value: T)

  /** `Err` carries the text of the error the source would raise. */
  datatype Result<+T> = Ok(value: T) | Err(msg: string)
}

/** Text primitives shared by every scorer: ASCII case folding, substring search,
    joining and decimal rendering of integers. */
module Text {
  import opened Results

  predicate IsUpper(c: char) { 'A' <= c <= 'Z' }

  /** ASCII-only fold: 'A'..'Z' become 'a'..'z', every other character is kept. */
  function LowerChar(c: char): char {
    if IsUpper(c) then (c as int + 32) as char else c
  }

  /** The model of `str.lower()`, restricted to ASCII letters. */
  function Lower(s: string): string {
    seq(|s|, i requires 0 <= i < |s| => LowerChar(s[i]))
  }

  /** `[k.lower() for k in keys]`. */
  function LowerAll(keys: seq<string>): (r: seq<string>)
    ensures |r| == |keys|
    ensures forall i :: 0 <= i < |keys| ==> r[i] == Lower(keys[i])
  {
    seq(|keys|, i requires 0 <= i < |keys| => Lower(keys[i]))
  }

  lemma LowerAllAppend(a: seq<string>, b: seq<string>)
    ensures LowerAll(a + b) == LowerAll(a) + LowerAll(b)
  {
  }

  /** No ASCII capital occurs in `s`. */
  predicate IsLower(s: string) {
    forall i :: 0 <= i < |s| ==> !IsUpper(s[i])
  }

  lemma LowerIsLower(s: string)
    ensures IsLower(Lower(s))
    ensures |Lower(s)| == |s|
  {
  }

  /** Folding is idempotent, and leaves already-folded text alone. */
  lemma LowerOfLower(s: string)
    requires IsLower(s)
    ensures Lower(s) == s
  {
  }

  lemma LowerAppend(a: string, b: string)
    ensures Lower(a + b) == Lower(a) + Lower(b)
  {
  }

  /** `p` occurs in `t` starting at index `i`. */
  predicate OccursAt(t: string, p: string, i: int) {
    0 <= i && i + |p| <= |t| && t[i..i + |p|] == p
  }

  /** Python's `p in t` on strings: a left-to-right scan of start positions.
      `ContainsOccurs` relates it to the positional definition of a substring. */
  function Contains(t: string, p: string): bool
    decreases |t|
  {
    if |p| > |t| then false
    else if t[..|p|] == p then true
    else Contains(t[1..], p)
  }

  /** `Contains` finds `p` exactly when `p` occurs at some position of `t`. */
  lemma {:induction false} ContainsOccurs(t: string, p: string)
    ensures Contains(t, p) <==> exists i :: OccursAt(t, p, i)
    decreases |t|
  {
    if |p| > |t| {
    } else if t[..|p|] == p {
      assert OccursAt(t, p, 0);
    } else {
      ContainsOccurs(t[1..], p);
      ShiftOccurrence(t, p);
    }
  }

  /** Occurrences in `t` after position 0 are exactly the occurrences in `t[1..]`, shifted by one. */
  lemma ShiftOccurrence(t: string, p: string)
    requires |p| <= |t| && t[..|p|] != p
    ensures (exists i :: OccursAt(t, p, i)) <==> (exists i :: OccursAt(t[1..], p, i))
  {
    if exists i :: OccursAt(t, p, i) {
      var i :| OccursAt(t, p, i);
      assert i != 0;
      assert t[1..][i - 1..i - 1 + |p|] == t[i..i + |p|];
      assert OccursAt(t[1..], p, i - 1);
    }
    if exists i :: OccursAt(t[1..], p, i) {
      var i :| OccursAt(t[1..], p, i);
      assert t[1..][i..i + |p|] == t[i + 1..i + 1 + |p|];
      assert OccursAt(t, p, i + 1);
    }
  }

  /** A substring of a part is a substring of any text built around that part. */
  lemma ContainsInfix(a: string, b: string, c: string, p: string)
    requires Contains(b, p)
    ensures Contains(a + b + c, p)
  {
    ContainsOccurs(b, p);
    ContainsOccurs(a + b + c, p);
    var i :| OccursAt(b, p, i);
    assert (a + b + c)[|a| + i..|a| + i + |p|] == b[i..i + |p|];
    assert OccursAt(a + b + c, p, |a| + i);
  }

  /** Python's `sep.join(parts)`. */
  function Join(sep: string, parts: seq<string>): string
    decreases |parts|
  {
    if |parts| == 0 then ""
    else if |parts| == 1 then parts[0]
    else parts[0] + sep + Join(sep, parts[1..])
  }

  /** Each part occurs in the joined text. */
  lemma {:induction false} JoinContains(sep: string, parts: seq<string>, k: string)
    requires k in parts
    ensures Contains(Join(sep, parts), k)
    decreases |parts|
  {
    if |parts| == 1 {
      ContainsOccurs(k, k);
      assert OccursAt(k, k, 0);
    } else if parts[0] == k {
      ContainsOccurs(k, k);
      assert OccursAt(k, k, 0);
      assert Join(sep, parts) == "" + k + (sep + Join(sep, parts[1..]));
      ContainsInfix("", k, sep + Join(sep, parts[1..]), k);
    } else {
      JoinContains(sep, parts[1..], k);
      assert Join(sep, parts) == parts[0] + sep + Join(sep, parts[1..]) + "";
      ContainsInfix(parts[0] + sep, Join(sep, parts[1..]), "", k);
    }
  }

  /** The first `n` characters, or all of them when there are fewer (`s[:n]`, `substring(0, n)`). */
  function Take(s: string, n: nat): (r: string)
    ensures |r| == if |s| < n then |s| else n
    ensures r <= s
  {
    if |s| <= n then s else s[..n]
  }

  function Min(a: int, b: int): (m: int)
    ensures m <= a && m <= b
    ensures m == a || m == b
  {
    if a < b then a else b
  }

  predicate IsDigit(c: char) { '0' <= c <= '9' }

  function DigitChar(d: nat): char
    requires d < 10
  {
    ('0' as int + d) as char
  }

  function DigitValue(c: char): nat
    requires IsDigit(c)
  {
    c as int - '0' as int
  }

  /** Decimal rendering of a natural number, most significant digit first, no leading zeros. */
  function NatToString(n: nat): (s: string)
    ensures |s| > 0
    ensures forall i :: 0 <= i < |s| ==> IsDigit(s[i])
    decreases n
  {
    if n < 10 then [DigitChar(n)] else NatToString(n / 10) + [DigitChar(n % 10)]
  }

  /** Python `str(n)` / JavaScript `String(n)` for an integer. */
  function IntToString(n: int): string {
    if n < 0 then "-" + NatToString(-n) else NatToString(n)
  }

  predicate AllDigits(s: string) {
    forall i :: 0 <= i < |s| ==> IsDigit(s[i])
  }

  /** Value of a non-empty run of decimal digits, read from the right. */
  function DigitsValue(s: string): nat
    requires AllDigits(s)
    decreases |s|
  {
    if |s| == 0 then 0 else 10 * DigitsValue(s[..|s| - 1]) + DigitValue(s[|s| - 1])
  }

  /** Python `int(s)` for an optional sign followed by decimal digits; anything else raises. */
  function ParseInt(s: string): (r: Option<int>)
    ensures r.Some? ==> |s| > 0
  {
    if |s| > 0 && (s[0] == '-' || s[0] == '+') then
      if |s| > 1 && AllDigits(s[1..]) then
        var v: int := DigitsValue(s[1..]);
        Some(if s[0] == '-' then -v else v)
      else None
    else if |s| > 0 && AllDigits(s) then Some(DigitsValue(s))
    else None
  }

  lemma {:induction false} DigitsOfNat(n: nat)
    ensures DigitsValue(NatToString(n)) == n
    decreases n
  {
    var s := NatToString(n);
    if n < 10 {
      assert s == [DigitChar(n)];
      assert s[..0] == [];
    } else {
      DigitsOfNat(n / 10);
      assert s[..|s| - 1] == NatToString(n / 10);
    }
  }

  /** Rendering an integer and parsing it back gives the integer. */
  lemma {:induction false} ParseRendered(n: int)
    ensures ParseInt(IntToString(n)) == Some(n)
  {
    if n < 0 {
      var s := "-" + NatToString(-n);
      assert s[1..] == NatToString(-n);
      DigitsOfNat(-n);
    } else {
      DigitsOfNat(n);
      assert NatToString(n)[0] != '-' && NatToString(n)[0] != '+';
    }
  }
}

/** Order-preserving filtering, the shape of every list comprehension with an `if` in the source. */
module Seqs {
  import opened Results

  /** `a` can be obtained from `b` by deleting elements. */
  predicate IsSubseq<T(==)>(a: seq<T>, b: seq<T>)
    decreases |b|
  {
    if |a| == 0 then true
    else if |b| == 0 then false
    else if a[0] == b[0] then IsSubseq(a[1..], b[1..])
    else IsSubseq(a, b[1..])
  }

  predicate Distinct<T(==)>(s: seq<T>) {
    forall i, j :: 0 <= i < j < |s| ==> s[i] != s[j]
  }

  /** `[x for x in s if p(x)]`. */
  function Filter<T(!new)>(p: T -> bool, s: seq<T>): (r: seq<T>)
    ensures |r| <= |s|
    ensures forall x :: x in r <==> x in s && p(x)
    ensures forall i :: 0 <= i < |r| ==> p(r[i])
    decreases |s|
  {
    if |s| == 0 then []
    else if p(s[0]) then [s[0]] + Filter(p, s[1..])
    else Filter(p, s[1..])
  }

  lemma {:induction false} FilterIsSubseq<T(!new)>(p: T -> bool, s: seq<T>)
    ensures IsSubseq(Filter(p, s), s)
    decreases |s|
  {
    if |s| > 0 {
      FilterIsSubseq(p, s[1..]);
      var r := Filter(p, s[1..]);
      if p(s[0]) {
        assert ([s[0]] + r)[1..] == r;
      } else {
        SubseqOfTail(r, s);
      }
    }
  }

  lemma {:induction false} SubseqOfTail<T>(a: seq<T>, b: seq<T>)
    requires |b| > 0 && IsSubseq(a, b[1..])
    ensures IsSubseq(a, b)
    decreases |b|, |a|
  {
    if |a| > 0 && a[0] == b[0] {
      // a[0] == b[0]: a[1..] is a sub-sequence of b[1..] because a is
      SubseqDropHead(a, b[1..]);
    }
  }

  lemma {:induction false} SubseqDropHead<T>(a: seq<T>, b: seq<T>)
    requires |a| > 0 && IsSubseq(a, b)
    ensures IsSubseq(a[1..], b)
    decreases |b|, |a|
  {
    if a[0] == b[0] {
      if |a[1..]| > 0 {
        SubseqDropHead(a[1..], b[1..]);
        SubseqOfTail(a[1..], b);
      }
    } else {
      SubseqDropHead(a, b[1..]);
      if |a[1..]| > 0 {
        SubseqOfTail(a[1..], b);
      }
    }
  }

  /** Filtering with every element kept is the identity. */
  lemma {:induction false} FilterAll<T(!new)>(p: T -> bool, s: seq<T>)
    requires forall x :: x in s ==> p(x)
    ensures Filter(p, s) == s
    decreases |s|
  {
    if |s| > 0 {
      FilterAll(p, s[1..]);
    }
  }

  /** A filter no element passes keeps nothing. */
  lemma {:induction false} FilterNone<T(!new)>(p: T -> bool, s: seq<T>)
    requires forall x :: x in s ==> !p(x)
    ensures Filter(p, s) == []
    decreases |s|
  {
    if |s| > 0 {
      FilterNone(p, s[1..]);
    }
  }

  /** Two successive filters are one filter on the conjunction. */
  lemma {:induction false} FilterFilter<T(!new)>(p: T -> bool, q: T -> bool, pq: T -> bool, s: seq<T>)
    requires forall x :: pq(x) == (p(x) && q(x))
    ensures Filter(q, Filter(p, s)) == Filter(pq, s)
    decreases |s|
  {
    if |s| > 0 {
      FilterFilter(p, q, pq, s[1..]);
      if p(s[0]) {
        assert Filter(p, s) == [s[0]] + Filter(p, s[1..]);
        assert ([s[0]] + Filter(p, s[1..]))[1..] == Filter(p, s[1..]);
      }
    }
  }

  lemma {:induction false} FilterAppend<T(!new)>(p: T -> bool, a: seq<T>, b: seq<T>)
    ensures Filter(p, a + b) == Filter(p, a) + Filter(p, b)
    decreases |a|
  {
    if |a| > 0 {
      assert (a + b)[1..] == a[1..] + b;
      FilterAppend(p, a[1..], b);
    } else {
      assert a + b == b;
    }
  }

  /** Filtering a sequence with one more element at the end. */
  lemma FilterSnoc<T(!new)>(p: T -> bool, s: seq<T>, x: T)
    ensures Filter(p, s + [x]) == Filter(p, s) + (if p(x) then [x] else [])
  {
    FilterAppend(p, s, [x]);
    assert Filter(p, [x]) == if p(x) then [x] else [];
  }

  /** `[f(x) for x in s]`. */
  function Map<A, B>(f: A -> B, s: seq<A>): (r: seq<B>)
    ensures |r| == |s|
    ensures forall i :: 0 <= i < |s| ==> r[i] == f(s[i])
  {
    seq(|s|, i requires 0 <= i < |s| => f(s[i]))
  }

  lemma MapSnoc<A, B>(f: A -> B, s: seq<A>, x: A)
    ensures Map(f, s + [x]) == Map(f, s) + [f(x)]
  {
    assert forall i :: 0 <= i < |s| ==> (s + [x])[i] == s[i];
  }

  /** Replacing an element by one the test treats alike keeps as many elements. */
  lemma {:induction false} FilterReplaceLength<T(!new)>(p: T -> bool, s: seq<T>, i: nat, x: T)
    requires i < |s| && p(s[i]) == p(x)
    ensures |Filter(p, s[i := x])| == |Filter(p, s)|
    decreases |s|
  {
    if i == 0 {
      assert s[i := x][1..] == s[1..];
    } else {
      assert s[i := x][1..] == s[1..][i - 1 := x];
      FilterReplaceLength(p, s[1..], i - 1, x);
    }
  }

  /** Two tests that agree on every element of `s` keep the same elements. */
  lemma {:induction false} FilterCongruent<T(!new)>(p: T -> bool, q: T -> bool, s: seq<T>)
    requires forall x :: x in s ==> p(x) == q(x)
    ensures Filter(p, s) == Filter(q, s)
    decreases |s|
  {
    if |s| > 0 {
      assert forall x :: x in s[1..] ==> x in s;
      FilterCongruent(p, q, s[1..]);
    }
  }

  /** `[f(x, i) for i, x in enumerate(xs)]` where any call may raise: `None` as soon as one does. */
  function TryMapIndexed<A, B>(f: (A, nat) -> Option<B>, xs: seq<A>): Option<seq<B>>
    decreases |xs|
  {
    if |xs| == 0 then Some([])
    else
      match TryMapIndexed(f, xs[..|xs| - 1])
      case None => None
      case Some(ys) =>
        match f(xs[|xs| - 1], |xs| - 1)
        case None => None
        case Some(y) => Some(ys + [y])
  }

  /** The mapping succeeds exactly when every call does, and then holds each call's result at
      its own position. */
  lemma {:induction false} TryMapIndexedSpec<A, B>(f: (A, nat) -> Option<B>, xs: seq<A>)
    ensures TryMapIndexed(f, xs).Some? <==> forall i :: 0 <= i < |xs| ==> f(xs[i], i).Some?
    ensures TryMapIndexed(f, xs).Some? ==> |TryMapIndexed(f, xs).value| == |xs|
    ensures TryMapIndexed(f, xs).Some? ==>
      forall i :: 0 <= i < |xs| ==> Some(TryMapIndexed(f, xs).value[i]) == f(xs[i], i)
    decreases |xs|
  {
    if |xs| > 0 {
      var n := |xs| - 1;
      var prefix := xs[..n];
      TryMapIndexedSpec(f, prefix);
      assert forall i :: 0 <= i < n ==> prefix[i] == xs[i];
    }
  }

  /** The loop that builds `TryMapIndexed(f, xs)`, appending one result at a time. */
  method TryMapIndexedLoop<A, B>(f: (A, nat) -> Option<B>, xs: seq<A>) returns (r: Option<seq<B>>)
    ensures r == TryMapIndexed(f, xs)
  {
    var ys: seq<B> := [];
    var i := 0;
    while i < |xs|
      invariant 0 <= i <= |xs|
      invariant TryMapIndexed(f, xs[..i]) == Some(ys)
    {
      var y := f(xs[i], i);
      assert xs[..i + 1][..i] == xs[..i];
      if y.None? {
        assert TryMapIndexed(f, xs[..i + 1]) == None;
        TryMapIndexedNone(f, xs, i + 1);
        return None;
      }
      ys := ys + [y.value];
      i := i + 1;
    }
    assert xs[..i] == xs;
    return Some(ys);
  }

  /** Once a prefix fails, the whole mapping fails. */
  lemma {:induction false} TryMapIndexedNone<A, B>(f: (A, nat) -> Option<B>, xs: seq<A>, n: nat)
    requires n <= |xs| && TryMapIndexed(f, xs[..n]) == None
    ensures TryMapIndexed(f, xs) == None
    decreases |xs| - n
  {
    if n < |xs| {
      assert xs[..n + 1][..n] == xs[..n];
      TryMapIndexedNone(f, xs, n + 1);
    } else {
      assert xs[..n] == xs;
    }
  }
}

=== FILE: router.dfy ===
/** `google_apps_script_backend.js`, the request half: `doPost` reads the JSON body, dispatches
    on its `action` and answers with a JSON result, turning every error into an error result. */
module Backend {
  import opened Results
  import opened Text
  import opened Sheets

  /** The fields of the parsed body `doPost` reads. */
  datatype Request = Request(action: Cell, data: Payload, companyId: Cell, status: Cell, note: Cell)

  /** What reaches `doPost`: no `postData`, contents `JSON.parse` rejects (with the parser's
      description), the JSON literal `null`, or a parsed object. */
  datatype Body = NoPostData | Unparsable(description: string) | JsonNull | Json(request: Request)

  /** The JSON result: the four success shapes (all with status "success") and the error shape. */
  datatype Response =
    | Pong(message: string, timestamp: string)
    | Listed(data: seq<Company>, count: int)
    | Added(message: string, id: string)
    | Updated(message: string)
    | Failed(message: string, timestamp: string)

  /** The actions that open (and, if need be, create) the spreadsheet. */
  predicate OpensSpreadsheet(action: Cell) {
    action in {Str("getCompanies"), Str("addCompany"), Str("updateStatus")}
  }

  const PingMessage: string := "FusionCRM バックエンドが正常に動作しています"

  /** The actions the switch knows (strict equality with these strings). */
  predicate KnownAction(action: Cell) {
    action in {Str("ping"), Str("getCompanies"), Str("addCompany"), Str("updateStatus")}
  }

  /** `doPost`: one request against the spreadsheet on the Drive. The thrown errors become
      `{status: "error", message: error.toString(), timestamp}`. */
  function DoPost(drive: Drive, env: Env, body: Body): (r: (Drive, Response))
    ensures r.1.Listed? ==> r.1.count == |r.1.data|
    ensures r.1.Pong? ==> r.1.message == PingMessage && r.0 == drive
    ensures r.1.Failed? ==> r.1.timestamp == env.nowIso
    ensures !body.Json? ==> r == (drive, r.1) && r.1.Failed?
  {
    match body
    case NoPostData => (drive, Failed("Error: リクエストデータがありません", env.nowIso))
    case Unparsable(description) => (drive, Failed("SyntaxError: " + description, env.nowIso))
    case JsonNull => (drive, Failed("TypeError: Cannot read properties of null (reading 'action')", env.nowIso))
    case Json(req) =>
      if req.action == Str("ping") then (drive, Pong(PingMessage, env.nowIso))
      else if req.action == Str("getCompanies") then
        var (d, companies) := GetCompanies(drive);
        (d, Listed(companies, |companies|))
      else if req.action == Str("addCompany") then
        var (d, res) := AddCompany(drive, env, req.data);
        (d, if res.Ok? then Added(AddedMessage, res.value) else Failed("Error: " + res.msg, env.nowIso))
      else if req.action == Str("updateStatus") then
        var (d, res) := UpdateCompanyStatus(drive, env, req.companyId, req.status, req.note);
        (d, if res.Ok? then Updated(res.value) else Failed("Error: " + res.msg, env.nowIso))
      else (drive, Failed("Error: 未知のアクション: " + JsText(req.action), env.nowIso))
  }

  /** The request fails exactly when there is no readable object, the action is unknown, the
      company data is missing, or no company has the id. */
  lemma FailsExactly(drive: Drive, env: Env, body: Body)
    ensures DoPost(drive, env, body).1.Failed? <==>
      || !body.Json?
      || !KnownAction(body.request.action)
      || (body.request.action == Str("addCompany") && !Readable(body.request.data))
      || (body.request.action == Str("updateStatus")
          && FindRow(CompaniesBook(drive).sheets[CompaniesName], body.request.companyId).None?)
  {
  }

  /** An unknown action names itself in the message and leaves the Drive alone. */
  lemma UnknownActionReported(drive: Drive, env: Env, req: Request)
    requires !KnownAction(req.action)
    ensures DoPost(drive, env, Json(req)) == (drive, Failed("Error: 未知のアクション: " + JsText(req.action), env.nowIso))
    ensures req.action == Null ==> DoPost(drive, env, Json(req)).1.message == "Error: 未知のアクション: null"
  {
  }

  /** A failed add or update answers with `error.toString()` of the wrapped error, "Error: "
      followed by its message, and leaves the spreadsheet with its companies sheet ensured. */
  lemma DataFailuresReported(drive: Drive, env: Env, req: Request)
    ensures req.action == Str("addCompany") && !Readable(req.data) ==>
      DoPost(drive, env, Json(req)) == (Some(CompaniesBook(drive)), Failed("Error: " + AddError(req.data), env.nowIso))
    ensures req.action == Str("updateStatus") && FindRow(CompaniesBook(drive).sheets[CompaniesName], req.companyId).None? ==>
      DoPost(drive, env, Json(req)) == (Some(CompaniesBook(drive)), Failed("Error: " + NotFound, env.nowIso))
  {
  }

  /** A status update of an existing company answers with the message naming the row's old
      status and the requested one. */
  lemma UpdateAnswered(drive: Drive, env: Env, req: Request)
    requires FindRow(CompaniesBook(drive).sheets[CompaniesName], req.companyId).Some?
    ensures var rows := CompaniesBook(drive).sheets[CompaniesName];
      var before := CellAt(rows[FindRow(rows, req.companyId).value], 8);
      DoPost(drive, env, Json(req.(action := Str("updateStatus")))).1 == Updated(UpdateMessage(before, req.status))
  {
  }

  /** Only the three data actions reach the spreadsheet; ping and every failure before dispatch
      leave the Drive as it was, even when there is no spreadsheet yet. */
  lemma OnlyDataActionsTouchDrive(drive: Drive, env: Env, body: Body)
    requires !body.Json? || !OpensSpreadsheet(body.request.action)
    ensures DoPost(drive, env, body).0 == drive
  {
  }

  /** A request against a well-formed spreadsheet (or none) leaves a well-formed one (or none). */
  lemma DoPostKeepsWellFormed(drive: Drive, env: Env, body: Body)
    requires drive.Some? ==> WellFormed(drive.value)
    ensures var d := DoPost(drive, env, body).0; d.Some? ==> WellFormed(d.value)
  {
    if body.Json? {
      var req := body.request;
      if req.action == Str("getCompanies") {
        GetKeepsWellFormed(drive);
      } else if req.action == Str("addCompany") {
        AddKeepsWellFormed(drive, env, req.data);
      } else if req.action == Str("updateStatus") {
        UpdateKeepsWellFormed(drive, env, req.companyId, req.status, req.note);
      }
    }
  }

  /** Posting a company and then listing returns the earlier list with the new company at the
      end, under the id the first response reported. */
  lemma AddThenGet(drive: Drive, env: Env, env2: Env, fields: map<string, Cell>, other: Request, other2: Request)
    requires HeaderKept(drive)
    ensures var (d, added) := DoPost(drive, env, Json(other.(action := Str("addCompany"), data := Object(fields))));
      var listed := DoPost(d, env2, Json(other2.(action := Str("getCompanies")))).1;
      && added == Added(AddedMessage, CompanyId(env))
      && listed.data == GetCompanies(drive).1 + [CompanyOf(NewRow(env, fields))]
      && listed.data[|listed.data| - 1].id == Str(added.id)
      && listed.count == |GetCompanies(drive).1| + 1
  {
    AddThenList(drive, env, fields);
  }

  /** Posting a status update for a company with a truthy id and then listing shows as many
      companies as before, among them that company with the requested status and the update time. */
  lemma UpdateThenGet(drive: Drive, env: Env, env2: Env, req: Request, other2: Request)
    requires FindRow(CompaniesBook(drive).sheets[CompaniesName], req.companyId).Some?
    requires Truthy(req.companyId)
    ensures var rows := CompaniesBook(drive).sheets[CompaniesName];
      var updatedRow := UpdatedRow(rows[FindRow(rows, req.companyId).value], env, req.status);
      var (d, updated) := DoPost(drive, env, Json(req.(action := Str("updateStatus"))));
      var listed := DoPost(d, env2, Json(other2.(action := Str("getCompanies")))).1;
      && updated.Updated?
      && listed.count == |GetCompanies(drive).1|
      && CompanyOf(updatedRow) in listed.data
      && CompanyOf(updatedRow).id == req.companyId
      && CompanyOf(updatedRow).status == Stored(req.status)
      && CompanyOf(updatedRow).lastUpdated == Time(env.now)
  {
    var update := req.(action := Str("updateStatus"));
    var d := DoPost(drive, env, Json(update)).0;
    assert d == UpdateCompanyStatus(drive, env, req.companyId, req.status, req.note).0;
    var companies := GetCompanies(d).1;
    assert DoPost(d, env2, Json(other2.(action := Str("getCompanies")))).1 == Listed(companies, |companies|);
    UpdateThenList(drive, env, req.companyId, req.status, req.note);
  }
}

=== FILE: scoring.dfy ===
/** Python values as they appear in the dictionaries the CRM passes around. */
module PyValues {
  import opened Text

  /** A dictionary value: a string, an integer, or `None`. */
  datatype Value = Str(s: string) | Int(i: int) | NoneV

  /** A Python `dict` keyed by strings. */
  type Record = map<string, Value>

  /** `str(v)`. */
  function Show(v: Value): string {
    match v
    case Str(s) => s
    case Int(i) => IntToString(i)
    case NoneV => "None"
  }

  /** Python truthiness: empty string, zero and `None` are false. */
  predicate Truthy(v: Value) {
    match v
    case Str(s) => s != ""
    case Int(i) => i != 0
    case NoneV => false
  }

  /** `r.get(k, default)`. */
  function Get(r: Record, k: string, default: Value): Value {
    if k in r then r[k] else default
  }

  /** `str(r.get(k, ''))`. */
  function FieldText(r: Record, k: string): string {
    Show(Get(r, k, Str("")))
  }
}

/** Keyword search over a folded text: which keywords occur, whether any occurs,
    and the weighted sum of those that occur. */
module Scoring {
  import opened Text
  import opened Seqs

  /** The keywords of `keys` that occur in `text`, in the order of `keys`
      (the `matched_keywords` list built by appending in a `for` loop). */
  function Found(keys: seq<string>, text: string): (m: seq<string>)
    ensures |m| <= |keys|
    ensures forall k :: k in m <==> k in keys && Contains(text, k)
  {
    Filter(Hit(text), keys)
  }

  /** The test applied to each keyword: does it occur in `text`? */
  function Hit(text: string): string -> bool {
    k => Contains(text, k)
  }

  /** `Found` keeps the table's order. */
  lemma FoundInOrder(keys: seq<string>, text: string)
    ensures IsSubseq(Found(keys, text), keys)
  {
    FilterIsSubseq(Hit(text), keys);
  }

  /** The set of table keywords that occur in `text`: the reference the counting scorers are checked against. */
  function Present(keys: seq<string>, text: string): set<string> {
    set k | k in keys && Contains(text, k)
  }

  /** For a table without repetitions, the number of hits is the number of distinct keywords present. */
  lemma {:induction false} FoundCount(keys: seq<string>, text: string)
    requires Distinct(keys)
    ensures |Found(keys, text)| == |Present(keys, text)|
    decreases |keys|
  {
    if |keys| > 0 {
      var tail := keys[1..];
      assert Distinct(tail);
      FoundCount(tail, text);
      var rest := Present(tail, text);
      assert forall j :: 0 <= j < |tail| ==> tail[j] == keys[j + 1] != keys[0];
      assert keys[0] !in rest;
      assert Hit(text)(keys[0]) == Contains(text, keys[0]);
      if Contains(text, keys[0]) {
        assert Found(keys, text) == [keys[0]] + Found(tail, text);
        assert Present(keys, text) == {keys[0]} + rest;
      } else {
        assert Found(keys, text) == Found(tail, text);
        assert Present(keys, text) == rest;
      }
    }
  }

  /** The test `keyword.lower() in text`. */
  function FoldedHit(text: string): string -> bool {
    k => Contains(text, Lower(k))
  }

  /** `[k for k in keys if k.lower() in text]`: the keywords kept in their own spelling. */
  function FoundFolded(keys: seq<string>, text: string): (m: seq<string>)
    ensures forall k :: k in m <==> k in keys && Contains(text, Lower(k))
  {
    Filter(FoldedHit(text), keys)
  }

  /** Over a table with no capitals, folding the keyword first changes nothing. */
  lemma FoundFoldedSame(keys: seq<string>, text: string)
    requires LowerAll(keys) == keys
    ensures FoundFolded(keys, text) == Found(keys, text)
  {
    forall k | k in keys ensures FoldedHit(text)(k) == Hit(text)(k) {
      var i :| 0 <= i < |keys| && keys[i] == k;
      assert LowerAll(keys)[i] == Lower(k);
    }
    FilterCongruent(FoldedHit(text), Hit(text), keys);
  }

  /** Ten points per keyword of a repetition-free table that occurs in `text`, capped at 100. */
  function TenPerKeyword(keys: seq<string>, text: string): (r: int)
    requires Distinct(keys)
    ensures 0 <= r <= 100 && r % 10 == 0
    ensures r == Min(10 * |Present(keys, text)|, 100)
    ensures r == 0 <==> !Mentions(keys, text)
  {
    MentionsPresent(keys, text);
    FoundCount(keys, text);
    Min(10 * |Found(keys, text)|, 100)
  }

  /** Some keyword of the table occurs in `text`. */
  predicate Mentions(keys: seq<string>, text: string) {
    exists k :: k in keys && Contains(text, k)
  }

  /** With no keyword of the table in `text`, nothing is found. */
  lemma FoundNone(keys: seq<string>, text: string)
    requires !Mentions(keys, text)
    ensures Found(keys, text) == []
  {
    FilterNone(Hit(text), keys);
  }

  /** `for k in keys: if k in text: return True` followed by `return False`. */
  function AnyFound(keys: seq<string>, text: string): (b: bool)
    ensures b == Mentions(keys, text)
    decreases |keys|
  {
    if |keys| == 0 then false
    else if Contains(text, keys[0]) then
      assert keys[0] in keys;
      true
    else
      assert forall k :: k in keys <==> k == keys[0] || k in keys[1..];
      AnyFound(keys[1..], text)
  }

  /** A table is mentioned exactly when the set of its keywords present is non-empty. */
  lemma MentionsPresent(keys: seq<string>, text: string)
    ensures Mentions(keys, text) <==> Present(keys, text) != {}
  {
    if Mentions(keys, text) {
      var k :| k in keys && Contains(text, k);
      assert k in Present(keys, text);
    }
  }

  /** The test applied to each table entry: does its keyword occur in `text`? */
  function PairHit(text: string): ((string, nat)) -> bool {
    (p: (string, nat)) => Contains(text, p.0)
  }

  /** `sum(points for keyword, points in table if keyword in text)`. */
  function Weighted(table: seq<(string, nat)>, text: string): (w: nat)
    ensures forall p :: p in table && Contains(text, p.0) ==> w >= p.1
    ensures (forall p :: p in table ==> !Contains(text, p.0)) ==> w == 0
    decreases |table|
  {
    if |table| == 0 then 0
    else
      var rest := Weighted(table[1..], text);
      assert forall p :: p in table ==> p == table[0] || p in table[1..];
      (if Contains(text, table[0].0) then table[0].1 else 0) + rest
  }

  /** When every weight is positive, the sum is zero exactly when no keyword is present. */
  lemma {:induction false} WeightedZero(table: seq<(string, nat)>, text: string)
    requires forall p :: p in table ==> p.1 > 0
    ensures Weighted(table, text) == 0 <==> forall p :: p in table ==> !Contains(text, p.0)
  {
  }

  /** The weighted sum capped at `cap`. */
  function CappedWeight(table: seq<(string, nat)>, text: string, cap: nat): (r: int)
    requires cap > 0
    requires forall p :: p in table ==> p.1 > 0
    ensures 0 <= r <= cap
    ensures forall p :: p in table && Contains(text, p.0) ==> r >= Min(p.1, cap)
    ensures r == 0 <==> forall p :: p in table ==> !Contains(text, p.0)
  {
    WeightedZero(table, text);
    Min(Weighted(table, text), cap)
  }

  /** The loop adds the weight of every entry whose keyword occurs and of no other:
      the sum is the total weight of exactly the entries present. */
  lemma {:induction false} WeightedIsTotal(table: seq<(string, nat)>, text: string)
    ensures Weighted(table, text) == TotalWeight(Filter(PairHit(text), table))
    decreases |table|
  {
    if |table| > 0 {
      WeightedIsTotal(table[1..], text);
      var kept := Filter(PairHit(text), table[1..]);
      assert PairHit(text)(table[0]) ==> ([table[0]] + kept)[1..] == kept;
    }
  }

  /** Hence the capped score is the total weight of the entries present, capped. */
  lemma CappedWeightIsTotal(table: seq<(string, nat)>, text: string, cap: nat)
    requires cap > 0
    requires forall p :: p in table ==> p.1 > 0
    ensures CappedWeight(table, text, cap) == Min(TotalWeight(Filter(PairHit(text), table)), cap)
  {
    WeightedIsTotal(table, text);
  }

  /** The sum never exceeds the sum of all weights. */
  function TotalWeight(table: seq<(string, nat)>): nat
    decreases |table|
  {
    if |table| == 0 then 0 else table[0].1 + TotalWeight(table[1..])
  }

  lemma {:induction false} WeightedBounded(table: seq<(string, nat)>, text: string)
    ensures Weighted(table, text) <= TotalWeight(table)
    decreases |table|
  {
    if |table| > 0 {
      WeightedBounded(table[1..], text);
    }
  }
}

=== FILE: sheet_store.dfy ===
/** `google_apps_script_backend.js`, the storage half: the "FusionCRM Database" spreadsheet
    with its Companies and Status_History sheets, and the operations the web app runs on it.
    The Drive, the clock, the signed-in user and the UUID generator are not called: the
    spreadsheet found on the Drive is a value, and the rest arrive in an `Env`. */
module Sheets {
  import opened Results
  import opened Text
  import opened Seqs

  // ---------------------------------------------------------------------------
  // Cells and rows
  // ---------------------------------------------------------------------------

  /** A JavaScript value as it reaches or leaves a sheet: `undefined`, `null`, a string,
      a number, a boolean, or a `Date` (its time value). */
  datatype Cell = Undefined | Null | Str(s: string) | Num(n: int) | Bool(b: bool) | Time(t: int)

  type Row = seq<Cell>

  /** JavaScript truthiness: `undefined`, `null`, `""`, `0` and `false` are falsy; a `Date` is truthy. */
  predicate Truthy(c: Cell) {
    match c
    case Undefined => false
    case Null => false
    case Str(s) => s != ""
    case Num(n) => n != 0
    case Bool(b) => b
    case Time(_) => true
  }

  /** `c || d`. */
  function Or(c: Cell, d: Cell): (r: Cell)
    ensures Truthy(c) ==> r == c
    ensures !Truthy(c) ==> r == d
  {
    if Truthy(c) then c else d
  }

  /** `undefined` or `null`. */
  predicate Nullish(c: Cell) {
    c.Undefined? || c.Null?
  }

  /** What a sheet holds after a value is written: writing `undefined` or `null` leaves the
      cell empty, and an empty cell reads back as "". */
  function Stored(c: Cell): (r: Cell)
    ensures !Nullish(r)
    ensures Nullish(c) ==> r == Str("")
    ensures !Nullish(c) ==> r == c
  {
    if Nullish(c) then Str("") else c
  }

  /** `values[j]` of a row read through a range: an empty cell reads as "". */
  function CellAt(row: Row, j: nat): (c: Cell)
    ensures j < |row| ==> c == row[j]
    ensures j >= |row| ==> c == Str("")
  {
    if j < |row| then row[j] else Str("")
  }

  /** `a === b`: two `Date` objects are never the same object here. */
  predicate StrictEq(a: Cell, b: Cell) {
    a == b && !a.Time?
  }

  /** `${c}` in a template literal. */
  function JsText(c: Cell): string {
    match c
    case Undefined => "undefined"
    case Null => "null"
    case Str(s) => s
    case Num(n) => IntToString(n)
    case Bool(b) => if b then "true" else "false"
    case Time(t) => IntToString(t)
  }

  /** `setValue` on column `j + 1` of a row: the row grows with empty cells when it is shorter. */
  function SetCell(row: Row, j: nat, v: Cell): (r: Row)
    ensures |r| == if j < |row| then |row| else j + 1
    ensures r[j] == v
    ensures forall k :: 0 <= k < |r| && k != j ==> r[k] == CellAt(row, k)
  {
    if j < |row| then row[j := v]
    else row + seq(j - |row|, _ => Str("")) + [v]
  }

  // ---------------------------------------------------------------------------
  // The spreadsheet
  // ---------------------------------------------------------------------------

  /** A spreadsheet: its sheets by name (each a list of rows, the header first) and whether it
      has been shared with edit rights to anyone holding the link. */
  datatype Book = Book(sheets: map<string, seq<Row>>, shared: bool)

  /** What `DriveApp.getFilesByName("FusionCRM Database")` finds: the spreadsheet, or nothing. */
  type Drive = Option<Book>

  const CompaniesName: string := "Companies"
  const HistoryName: string := "Status_History"

  const CompanyHeaders: Row := [
    Str("ID"), Str("企業名"), Str("業界"), Str("ウェブサイト"), Str("担当者"), Str("メール"), Str("電話"),
    Str("PicoCELA関連度"), Str("ステータス"), Str("備考"), Str("作成日"), Str("最終更新日")
  ]

  const HistoryHeaders: Row := [
    Str("ID"), Str("企業ID"), Str("企業名"), Str("変更前ステータス"), Str("変更後ステータス"),
    Str("変更理由"), Str("変更者"), Str("変更日時")
  ]

  /** The spreadsheet `getOrCreateSpreadsheet` creates: both sheets with their headers, shared. */
  function NewBook(): Book {
    Book(map[CompaniesName := [CompanyHeaders], HistoryName := [HistoryHeaders]], true)
  }

  /** `getOrCreateSpreadsheet`: the spreadsheet on the Drive, or a new one. */
  function OpenBook(drive: Drive): Book {
    if drive.Some? then drive.value else NewBook()
  }

  /** `getCompaniesSheet` / `getHistorySheet`: a missing sheet is inserted with its header row;
      an existing one is used as it is. */
  function WithSheet(book: Book, name: string, headers: Row): (b: Book)
    ensures name in b.sheets && b.shared == book.shared
    ensures name in book.sheets ==> b == book
    ensures name !in book.sheets ==> b.sheets[name] == [headers]
    ensures forall n :: n in book.sheets ==> n in b.sheets && b.sheets[n] == book.sheets[n]
    ensures forall n :: n in b.sheets ==> n in book.sheets || n == name
  {
    if name in book.sheets then book
    else book.(sheets := book.sheets[name := [headers]])
  }

  /** Both sheets exist and start with their header rows. */
  predicate WellFormed(book: Book) {
    Headed(book, CompaniesName, CompanyHeaders) && Headed(book, HistoryName, HistoryHeaders)
  }

  /** The sheet exists and its first row is `headers`. */
  predicate Headed(book: Book, name: string, headers: Row) {
    name in book.sheets && |book.sheets[name]| >= 1 && book.sheets[name][0] == headers
  }

  /** Rewriting a row below the header, or appending one, keeps every sheet's header. */
  lemma PutKeepsHeaded(book: Book, name: string, rows: seq<Row>, other: string, headers: Row)
    requires Headed(book, other, headers) && name in book.sheets && |rows| >= 1
    requires |book.sheets[name]| >= 1 && rows[0] == book.sheets[name][0]
    ensures Headed(PutRows(book, name, rows), other, headers)
  {
  }

  /** A new spreadsheet is well formed, and opening leaves an existing one as it is. */
  lemma OpenBookFacts(drive: Drive)
    ensures drive.None? ==> WellFormed(OpenBook(drive)) && OpenBook(drive).shared
    ensures drive.Some? ==> OpenBook(drive) == drive.value
  {
  }

  /** The spreadsheet after `getCompaniesSheet`: the companies sheet exists, and it has its
      header unless an existing sheet was emptied by hand. */
  function CompaniesBook(drive: Drive): (b: Book)
    ensures CompaniesName in b.sheets
    ensures HeaderKept(drive) ==> |b.sheets[CompaniesName]| >= 1
    ensures drive.Some? && CompaniesName in drive.value.sheets ==> b == drive.value
  {
    WithSheet(OpenBook(drive), CompaniesName, CompanyHeaders)
  }

  /** The companies sheet on the Drive, if there is one, still has a first row. */
  predicate HeaderKept(drive: Drive) {
    drive.Some? && CompaniesName in drive.value.sheets ==> |drive.value.sheets[CompaniesName]| >= 1
  }

  /** Replaces the rows of one sheet. */
  function PutRows(book: Book, name: string, rows: seq<Row>): (b: Book)
    ensures name in b.sheets && b.sheets[name] == rows && b.shared == book.shared
    ensures forall n :: n in book.sheets && n != name ==> n in b.sheets && b.sheets[n] == book.sheets[n]
    ensures forall n :: n in b.sheets ==> n in book.sheets || n == name
  {
    book.(sheets := book.sheets[name := rows])
  }

  // ---------------------------------------------------------------------------
  // getCompanies
  // ---------------------------------------------------------------------------

  /** The object `getCompanies` builds from one row. */
  datatype Company = Company(
    id: Cell, name: Cell, industry: Cell, website: Cell, contactPerson: Cell, email: Cell,
    phone: Cell, picoCelaScore: Cell, status: Cell, notes: Cell, createdDate: Cell, lastUpdated: Cell)

  function CompanyOf(row: Row): Company {
    Company(CellAt(row, 0), CellAt(row, 1), CellAt(row, 2), CellAt(row, 3), CellAt(row, 4), CellAt(row, 5),
            CellAt(row, 6), CellAt(row, 7), CellAt(row, 8), CellAt(row, 9), CellAt(row, 10), CellAt(row, 11))
  }

  /** `if (row[0])`: only rows with an id are companies. */
  function HasId(): Row -> bool {
    row => Truthy(CellAt(row, 0))
  }

  /** The companies of a sheet: every row after the header whose id is truthy, in sheet order.
      With nothing below the header (`getLastRow() <= 1`) the list is empty. */
  function ListCompanies(rows: seq<Row>): (cs: seq<Company>)
    ensures |rows| <= 1 ==> cs == []
    ensures |rows| > 1 ==> |cs| <= |rows| - 1
    ensures forall c :: c in cs ==> Truthy(c.id)
  {
    if |rows| <= 1 then []
    else
      var kept := Filter(HasId(), rows[1..]);
      seq(|kept|, i requires 0 <= i < |kept| => CompanyOf(kept[i]))
  }

  /** The companies of the rows kept. */
  function Companies(rows: seq<Row>): seq<Company> {
    seq(|rows|, i requires 0 <= i < |rows| => CompanyOf(rows[i]))
  }

  lemma CompaniesAppend(a: seq<Row>, b: seq<Row>)
    ensures Companies(a + b) == Companies(a) + Companies(b)
  {
  }

  /** A row appended below a non-empty sheet shows up at the end of the list exactly when it
      has an id; the companies already listed stay as they were, in order. */
  lemma ListAppend(rows: seq<Row>, row: Row)
    requires |rows| >= 1
    ensures ListCompanies(rows + [row])
         == ListCompanies(rows) + (if Truthy(CellAt(row, 0)) then [CompanyOf(row)] else [])
  {
    assert (rows + [row])[1..] == rows[1..] + [row];
    FilterSnoc(HasId(), rows[1..], row);
    var kept := Filter(HasId(), rows[1..]);
    assert ListCompanies(rows) == Companies(kept);
    CompaniesAppend(kept, if Truthy(CellAt(row, 0)) then [row] else []);
  }

  /** Rewriting a data row without changing its truthy id keeps the number of companies, and
      the rewritten row is listed. */
  lemma ListReplace(rows: seq<Row>, i: nat, row: Row)
    requires 1 <= i < |rows| && Truthy(CellAt(rows[i], 0)) && CellAt(row, 0) == CellAt(rows[i], 0)
    ensures |ListCompanies(rows[i := row])| == |ListCompanies(rows)|
    ensures CompanyOf(row) in ListCompanies(rows[i := row])
  {
    var after := rows[i := row];
    assert after[1..] == rows[1..][i - 1 := row];
    FilterReplaceLength(HasId(), rows[1..], i - 1, row);
    var kept := Filter(HasId(), after[1..]);
    assert after[1..][i - 1] == row;
    assert row in kept;
    var j :| 0 <= j < |kept| && kept[j] == row;
    assert ListCompanies(after)[j] == CompanyOf(row);
  }

  /** `getCompanies`: opens (or creates) the spreadsheet and lists the companies sheet. */
  function GetCompanies(drive: Drive): (r: (Drive, seq<Company>))
    ensures r.0.Some? && CompaniesName in r.0.value.sheets
    ensures r.1 == ListCompanies(r.0.value.sheets[CompaniesName])
    ensures drive.Some? && CompaniesName in drive.value.sheets ==> r.0 == drive
    ensures drive.Some? && CompaniesName !in drive.value.sheets ==>
      r.0.value.sheets[CompaniesName] == [CompanyHeaders] && r.1 == []
    ensures drive.None? ==> r.0 == Some(NewBook()) && r.1 == []
    ensures r.1 != [] ==> |r.1| < |r.0.value.sheets[CompaniesName]|
    ensures forall c :: c in r.1 ==> Truthy(c.id)
  {
    var book := CompaniesBook(drive);
    (Some(book), ListCompanies(book.sheets[CompaniesName]))
  }

  // ---------------------------------------------------------------------------
  // addCompany
  // ---------------------------------------------------------------------------

  /** How the history write of a status update ends: it succeeds; it throws inside
      `getHistorySheet` before a missing sheet is inserted; or it throws once the history sheet
      exists (the UUID, the user lookup or `appendRow`). Either failure is swallowed. */
  datatype HistoryOutcome = Written | FailsBeforeSheet | FailsAfterSheet

  /** What the platform supplies to one request: the clock (as a time value and as ISO text),
      the signed-in user's e-mail, two fresh UUIDs, and how the history write ends. */
  datatype Env = Env(now: int, nowIso: string, user: string, uuid1: string, uuid2: string, history: HistoryOutcome)

  /** The `data` of a request: absent, `null`, a value without the properties read (a string,
      number, boolean or array), or an object whose missing properties read as `undefined`. */
  datatype Payload = NoData | NullData | NoFields | Object(fields: map<string, Cell>)

  /** Reading a property of `data` does not throw: it is neither `undefined` nor `null`. */
  predicate Readable(data: Payload) {
    data.NoFields? || data.Object?
  }

  /** The properties of readable `data`; a value without them reads `undefined` everywhere. */
  function FieldsOf(data: Payload): map<string, Cell>
    requires Readable(data)
  {
    if data.Object? then data.fields else map[]
  }

  function Field(fields: map<string, Cell>, k: string): Cell {
    if k in fields then fields[k] else Undefined
  }

  /** `generateId`: "CMP_" and the first eight characters of a UUID. */
  function CompanyId(env: Env): (id: string)
    ensures 4 <= |id| <= 12 && id[..4] == "CMP_"
  {
    "CMP_" + Take(env.uuid1, 8)
  }

  /** Columns 3 to 11 of a new row: the property read and the value `||` falls back on. */
  function Defaults(now: int): seq<(string, Cell)> {
    [("industry", Str("")), ("website", Str("")), ("contact_person", Str("")), ("email", Str("")),
     ("phone", Str("")), ("picoCela_score", Num(5)), ("status", Str("New")), ("notes", Str("")),
     ("created_date", Time(now))]
  }

  /** The row `addCompany` appends: the new id, the name as given, the defaults of `||` for
      the other fields (score 5, status "New", creation date now) and the update time now. */
  function NewRow(env: Env, fields: map<string, Cell>): (row: Row)
    ensures |row| == |CompanyHeaders|
    ensures row[0] == Str(CompanyId(env))
    ensures !Nullish(Field(fields, "name")) ==> row[1] == Field(fields, "name")
    ensures Nullish(Field(fields, "name")) ==> row[1] == Str("")
    ensures forall j :: 2 <= j < 11 ==>
      var (key, default) := Defaults(env.now)[j - 2];
      row[j] == if Truthy(Field(fields, key)) then Field(fields, key) else default
    ensures row[11] == Time(env.now)
  {
    [ Str(CompanyId(env)),
      Stored(Field(fields, "name")),
      Or(Field(fields, "industry"), Str("")),
      Or(Field(fields, "website"), Str("")),
      Or(Field(fields, "contact_person"), Str("")),
      Or(Field(fields, "email"), Str("")),
      Or(Field(fields, "phone"), Str("")),
      Or(Field(fields, "picoCela_score"), Num(5)),
      Or(Field(fields, "status"), Str("New")),
      Or(Field(fields, "notes"), Str("")),
      Or(Field(fields, "created_date"), Time(env.now)),
      Time(env.now) ]
  }

  const AddedMessage: string := "企業が正常に追加されました"

  /** The message of the error `addCompany` throws for an absent or `null` payload. */
  function AddError(data: Payload): string
    requires !Readable(data)
  {
    "企業の追加に失敗しました: TypeError: Cannot read properties of "
      + (if data.NoData? then "undefined" else "null") + " (reading 'name')"
  }

  /** `addCompany`: appends the new row and returns its id; when `data` is `undefined` or
      `null` reading its name throws, after the companies sheet has already been ensured. */
  function AddCompany(drive: Drive, env: Env, data: Payload): (r: (Drive, Result<string>))
    ensures r.0.Some? && CompaniesName in r.0.value.sheets
    ensures r.1.Ok? <==> Readable(data)
    ensures r.1.Ok? ==> r.1.value == CompanyId(env)
    ensures r.1.Ok? ==> r.0.value.sheets[CompaniesName]
                          == CompaniesBook(drive).sheets[CompaniesName] + [NewRow(env, FieldsOf(data))]
    ensures r.1.Ok? ==> forall n :: n in CompaniesBook(drive).sheets && n != CompaniesName ==>
                          n in r.0.value.sheets && r.0.value.sheets[n] == CompaniesBook(drive).sheets[n]
    ensures r.1.Err? ==> r.0 == Some(CompaniesBook(drive))
    ensures r.1.Err? ==> r.1.msg == AddError(data)
  {
    var book := CompaniesBook(drive);
    if !Readable(data) then (Some(book), Err(AddError(data)))
    else
      var rows := book.sheets[CompaniesName];
      (Some(PutRows(book, CompaniesName, rows + [NewRow(env, FieldsOf(data))])), Ok(CompanyId(env)))
  }

  /** Adding a company and then listing shows the list as it was followed by the new company,
      under the id the add returned, with the defaults filled in. */
  lemma AddThenList(drive: Drive, env: Env, fields: map<string, Cell>)
    requires HeaderKept(drive)
    ensures var (d, res) := AddCompany(drive, env, Object(fields));
      && GetCompanies(d).1 == GetCompanies(drive).1 + [CompanyOf(NewRow(env, fields))]
      && CompanyOf(NewRow(env, fields)).id == Str(res.value)
      && CompanyOf(NewRow(env, fields)).status == (if Truthy(Field(fields, "status")) then Field(fields, "status") else Str("New"))
      && CompanyOf(NewRow(env, fields)).picoCelaScore == (if Truthy(Field(fields, "picoCela_score")) then Field(fields, "picoCela_score") else Num(5))
      && CompanyOf(NewRow(env, fields)).lastUpdated == Time(env.now)
  {
    var book := CompaniesBook(drive);
    var rows := book.sheets[CompaniesName];
    var row := NewRow(env, fields);
    assert Truthy(CellAt(row, 0));
    ListAppend(rows, row);
    var d := AddCompany(drive, env, Object(fields)).0;
    assert CompaniesBook(d) == d.value;
  }

  // ---------------------------------------------------------------------------
  // updateCompanyStatus and addStatusHistory
  // ---------------------------------------------------------------------------

  /** The first data row (index 1 or later) whose id is `===` the requested id. */
  function FindRow(rows: seq<Row>, id: Cell): (r: Option<nat>)
    ensures r.Some? ==> 1 <= r.value < |rows| && StrictEq(CellAt(rows[r.value], 0), id)
    ensures r.Some? ==> forall k :: 1 <= k < r.value ==> !StrictEq(CellAt(rows[k], 0), id)
    ensures r.None? <==> forall k :: 1 <= k < |rows| ==> !StrictEq(CellAt(rows[k], 0), id)
  {
    FindFrom(rows, id, 1)
  }

  function FindFrom(rows: seq<Row>, id: Cell, from: nat): (r: Option<nat>)
    requires from >= 1
    ensures r.Some? ==> from <= r.value < |rows| && StrictEq(CellAt(rows[r.value], 0), id)
    ensures r.Some? ==> forall k :: from <= k < r.value ==> !StrictEq(CellAt(rows[k], 0), id)
    ensures r.None? <==> forall k :: from <= k < |rows| ==> !StrictEq(CellAt(rows[k], 0), id)
    decreases |rows| - from
  {
    if from >= |rows| then None
    else if StrictEq(CellAt(rows[from], 0), id) then Some(from)
    else FindFrom(rows, id, from + 1)
  }

  /** The search loop of `updateCompanyStatus`, returning the 1-based sheet row or -1. */
  method LocateCompany(data: seq<Row>, companyId: Cell) returns (rowIndex: int)
    ensures rowIndex == -1 <==> forall k :: 1 <= k < |data| ==> !StrictEq(CellAt(data[k], 0), companyId)
    ensures rowIndex != -1 ==> 2 <= rowIndex <= |data| && StrictEq(CellAt(data[rowIndex - 1], 0), companyId)
    ensures rowIndex != -1 ==> forall k :: 1 <= k < rowIndex - 1 ==> !StrictEq(CellAt(data[k], 0), companyId)
    ensures rowIndex == if FindRow(data, companyId).Some? then FindRow(data, companyId).value + 1 else -1
  {
    rowIndex := -1;
    var i := 1;
    while i < |data|
      invariant 1 <= i <= |data| || (|data| <= 1 && i == 1)
      invariant forall k :: 1 <= k < i && k < |data| ==> !StrictEq(CellAt(data[k], 0), companyId)
    {
      if StrictEq(CellAt(data[i], 0), companyId) {
        rowIndex := i + 1;
        return;
      }
      i := i + 1;
    }
  }

  const NotFound: string := "ステータスの更新に失敗しました: Error: 指定された企業が見つかりません"

  /** The row `addStatusHistory` appends. */
  function HistoryRow(env: Env, companyId: Cell, name: Cell, oldStatus: Cell, newStatus: Cell, note: Cell): (row: Row)
    ensures |row| == |HistoryHeaders|
    ensures row[0].Str? && "HST_" <= row[0].s
    ensures row[1] == Stored(companyId) && row[2] == name && row[3] == oldStatus && row[4] == Stored(newStatus)
    ensures Truthy(note) ==> row[5] == note
    ensures !Truthy(note) ==> row[5] == Str("")
    ensures row[6] == Str(env.user) && row[7] == Time(env.now)
  {
    [Str("HST_" + Take(env.uuid2, 8)), Stored(companyId), name, oldStatus, Stored(newStatus),
     Or(note, Str("")), Str(env.user), Time(env.now)]
  }

  /** `addStatusHistory`: appends one row to the history sheet (creating the sheet if needed).
      A failure is logged and swallowed; what it leaves behind depends on whether
      `getHistorySheet` had already inserted a missing sheet with its header. */
  function AddStatusHistory(book: Book, env: Env, companyId: Cell, name: Cell, oldStatus: Cell, newStatus: Cell, note: Cell)
    : (b: Book)
    ensures env.history.FailsBeforeSheet? ==> b == book
    ensures !env.history.FailsBeforeSheet? ==> HistoryName in b.sheets
    ensures env.history.FailsAfterSheet? ==>
      b.sheets[HistoryName] == if HistoryName in book.sheets then book.sheets[HistoryName] else [HistoryHeaders]
    ensures env.history.Written? ==>
      b.sheets[HistoryName] == (if HistoryName in book.sheets then book.sheets[HistoryName] else [HistoryHeaders])
        + [HistoryRow(env, companyId, name, oldStatus, newStatus, note)]
    ensures !env.history.Written? && HistoryName in book.sheets ==> b == book
    ensures forall n :: n in book.sheets && n != HistoryName ==> n in b.sheets && b.sheets[n] == book.sheets[n]
  {
    if env.history.FailsBeforeSheet? then book
    else
      var withHistory := WithSheet(book, HistoryName, HistoryHeaders);
      if env.history.FailsAfterSheet? then withHistory
      else
        PutRows(withHistory, HistoryName,
                withHistory.sheets[HistoryName] + [HistoryRow(env, companyId, name, oldStatus, newStatus, note)])
  }

  /** The row after the update: status (column 9) and last update (column 12) rewritten. */
  function UpdatedRow(row: Row, env: Env, newStatus: Cell): (r: Row)
    ensures |r| >= 12 && |r| >= |row|
    ensures r[8] == Stored(newStatus) && r[11] == Time(env.now)
    ensures forall k :: 0 <= k < |r| && k != 8 && k != 11 ==> r[k] == CellAt(row, k)
  {
    SetCell(SetCell(row, 8, Stored(newStatus)), 11, Time(env.now))
  }

  /** `updateCompanyStatus`: finds the first row with the id, rewrites its status and last
      update, records the change in the history and reports old and new status. An unknown
      id is an error and changes nothing beyond ensuring the companies sheet. */
  function UpdateCompanyStatus(drive: Drive, env: Env, companyId: Cell, newStatus: Cell, note: Cell)
    : (r: (Drive, Result<string>))
    ensures r.0.Some?
    ensures r.1.Err? <==> FindRow(CompaniesBook(drive).sheets[CompaniesName], companyId).None?
    ensures r.1.Err? ==> r.1.msg == NotFound && r.0 == Some(CompaniesBook(drive))
    ensures r.1.Ok? ==> var rows := CompaniesBook(drive).sheets[CompaniesName];
      FindRow(rows, companyId).Some? &&
      r.1.value == UpdateMessage(CellAt(rows[FindRow(rows, companyId).value], 8), newStatus)
  {
    var book := CompaniesBook(drive);
    var rows := book.sheets[CompaniesName];
    match FindRow(rows, companyId)
    case None => (Some(book), Err(NotFound))
    case Some(i) =>
      (Some(UpdatedBook(book, i, env, companyId, newStatus, note)), Ok(UpdateMessage(CellAt(rows[i], 8), newStatus)))
  }

  /** The template `ステータスを ${currentStatus} から ${newStatus} に更新しました`. */
  function UpdateMessage(current: Cell, newStatus: Cell): string {
    "ステータスを " + JsText(current) + " から " + JsText(newStatus) + " に更新しました"
  }

  /** The spreadsheet after row `i` was found: the row rewritten, then the history appended. */
  function UpdatedBook(book: Book, i: nat, env: Env, companyId: Cell, newStatus: Cell, note: Cell): Book
    requires CompaniesName in book.sheets && i < |book.sheets[CompaniesName]|
  {
    var rows := book.sheets[CompaniesName];
    var updated := PutRows(book, CompaniesName, rows[i := UpdatedRow(rows[i], env, newStatus)]);
    AddStatusHistory(updated, env, companyId, CellAt(rows[i], 1), CellAt(rows[i], 8), newStatus, note)
  }

  /** Every operation keeps a well-formed spreadsheet well formed and turns a missing one into a
      well-formed one: the header rows are never overwritten. */
  lemma GetKeepsWellFormed(drive: Drive)
    requires drive.Some? ==> WellFormed(drive.value)
    ensures WellFormed(GetCompanies(drive).0.value)
  {
    CompaniesBookWellFormed(drive);
  }

  lemma CompaniesBookWellFormed(drive: Drive)
    requires drive.Some? ==> WellFormed(drive.value)
    ensures WellFormed(CompaniesBook(drive))
  {
  }

  lemma AddKeepsWellFormed(drive: Drive, env: Env, data: Payload)
    requires drive.Some? ==> WellFormed(drive.value)
    ensures WellFormed(AddCompany(drive, env, data).0.value)
  {
    var book := CompaniesBook(drive);
    CompaniesBookWellFormed(drive);
    if Readable(data) {
      var rows := book.sheets[CompaniesName];
      assert (rows + [NewRow(env, FieldsOf(data))])[0] == rows[0];
    }
  }

  lemma UpdateKeepsWellFormed(drive: Drive, env: Env, companyId: Cell, newStatus: Cell, note: Cell)
    requires drive.Some? ==> WellFormed(drive.value)
    ensures WellFormed(UpdateCompanyStatus(drive, env, companyId, newStatus, note).0.value)
  {
    var book := CompaniesBook(drive);
    CompaniesBookWellFormed(drive);
    UpdateResultBook(drive, env, companyId, newStatus, note);
    var found := FindRow(book.sheets[CompaniesName], companyId);
    if found.Some? {
      UpdatedBookWellFormed(book, found.value, env, companyId, newStatus, note);
    }
  }

  /** The spreadsheet an update leaves behind. */
  lemma UpdateResultBook(drive: Drive, env: Env, companyId: Cell, newStatus: Cell, note: Cell)
    ensures var book := CompaniesBook(drive);
      var found := FindRow(book.sheets[CompaniesName], companyId);
      UpdateCompanyStatus(drive, env, companyId, newStatus, note).0
        == Some(if found.Some? then UpdatedBook(book, found.value, env, companyId, newStatus, note) else book)
  {
  }

  lemma UpdatedBookWellFormed(book: Book, i: nat, env: Env, companyId: Cell, newStatus: Cell, note: Cell)
    requires WellFormed(book) && 1 <= i < |book.sheets[CompaniesName]|
    ensures WellFormed(UpdatedBook(book, i, env, companyId, newStatus, note))
  {
    var rows := book.sheets[CompaniesName];
    DataRowKeepsWellFormed(book, i, UpdatedRow(rows[i], env, newStatus));
    var updated := PutRows(book, CompaniesName, rows[i := UpdatedRow(rows[i], env, newStatus)]);
    HistoryKeepsWellFormed(updated, env, companyId, CellAt(rows[i], 1), CellAt(rows[i], 8), newStatus, note);
  }

  lemma DataRowKeepsWellFormed(book: Book, i: nat, row: Row)
    requires WellFormed(book) && 1 <= i < |book.sheets[CompaniesName]|
    ensures WellFormed(PutRows(book, CompaniesName, book.sheets[CompaniesName][i := row]))
  {
    var rows := book.sheets[CompaniesName][i := row];
    PutKeepsHeaded(book, CompaniesName, rows, CompaniesName, CompanyHeaders);
    PutKeepsHeaded(book, CompaniesName, rows, HistoryName, HistoryHeaders);
  }

  lemma HistoryKeepsWellFormed(book: Book, env: Env, companyId: Cell, name: Cell, oldStatus: Cell, newStatus: Cell, note: Cell)
    requires WellFormed(book)
    ensures WellFormed(AddStatusHistory(book, env, companyId, name, oldStatus, newStatus, note))
  {
    if env.history.Written? {
      var h := book.sheets[HistoryName];
      assert (h + [HistoryRow(env, companyId, name, oldStatus, newStatus, note)])[0] == h[0];
    }
  }

  /** A successful update changes the first matching row only, and in it only the status and the
      last-update cells; every other row of the companies sheet is as it was. */
  lemma UpdateTouchesOneRow(drive: Drive, env: Env, companyId: Cell, newStatus: Cell, note: Cell)
    requires FindRow(CompaniesBook(drive).sheets[CompaniesName], companyId).Some?
    ensures var rows := CompaniesBook(drive).sheets[CompaniesName];
      var i := FindRow(rows, companyId).value;
      var after := UpdateCompanyStatus(drive, env, companyId, newStatus, note).0.value.sheets[CompaniesName];
      && |after| == |rows|
      && (forall k :: 0 <= k < |rows| && k != i ==> after[k] == rows[k])
      && after[i][8] == Stored(newStatus) && after[i][11] == Time(env.now)
      && (forall k :: 0 <= k < |after[i]| && k != 8 && k != 11 ==> after[i][k] == CellAt(rows[i], k))
  {
  }

  /** Updating a company with a truthy id and then listing shows as many companies as before,
      among them the updated one with its id, the new status and the update time. */
  lemma UpdateThenList(drive: Drive, env: Env, companyId: Cell, newStatus: Cell, note: Cell)
    requires FindRow(CompaniesBook(drive).sheets[CompaniesName], companyId).Some?
    requires Truthy(companyId)
    ensures var rows := CompaniesBook(drive).sheets[CompaniesName];
      var i := FindRow(rows, companyId).value;
      var listed := GetCompanies(UpdateCompanyStatus(drive, env, companyId, newStatus, note).0).1;
      && |listed| == |GetCompanies(drive).1|
      && CompanyOf(UpdatedRow(rows[i], env, newStatus)) in listed
      && CompanyOf(UpdatedRow(rows[i], env, newStatus)).id == companyId
      && CompanyOf(UpdatedRow(rows[i], env, newStatus)).status == Stored(newStatus)
      && CompanyOf(UpdatedRow(rows[i], env, newStatus)).lastUpdated == Time(env.now)
  {
    var book := CompaniesBook(drive);
    var rows := book.sheets[CompaniesName];
    var i := FindRow(rows, companyId).value;
    var row := UpdatedRow(rows[i], env, newStatus);
    UpdateResultBook(drive, env, companyId, newStatus, note);
    var after := UpdateCompanyStatus(drive, env, companyId, newStatus, note).0.value;
    assert after.sheets[CompaniesName] == rows[i := row];
    assert CompaniesBook(Some(after)) == after;
    ListReplace(rows, i, row);
  }

  /** A history failure is swallowed: the update's answer and its companies sheet are the same
      however the history write ends. */
  lemma HistoryFailureSwallowed(drive: Drive, env: Env, outcome: HistoryOutcome, companyId: Cell, newStatus: Cell, note: Cell)
    ensures var r1 := UpdateCompanyStatus(drive, env, companyId, newStatus, note);
      var r2 := UpdateCompanyStatus(drive, env.(history := outcome), companyId, newStatus, note);
      && r1.1 == r2.1
      && r1.0.Some? && r2.0.Some?
      && r1.0.value.sheets[CompaniesName] == r2.0.value.sheets[CompaniesName]
  {
  }

  /** A successful update appends exactly one history row recording the id, the company's name,
      the old and the new status, unless writing the history fails. */
  lemma UpdateRecordsHistory(drive: Drive, env: Env, companyId: Cell, newStatus: Cell, note: Cell)
    requires FindRow(CompaniesBook(drive).sheets[CompaniesName], companyId).Some?
    requires env.history.Written?
    ensures var book := CompaniesBook(drive);
      var before := if HistoryName in book.sheets then book.sheets[HistoryName] else [HistoryHeaders];
      var rows := CompaniesBook(drive).sheets[CompaniesName];
      var i := FindRow(rows, companyId).value;
      var b := UpdateCompanyStatus(drive, env, companyId, newStatus, note).0.value;
      && HistoryName in b.sheets
      && b.sheets[HistoryName] == before + [HistoryRow(env, companyId, CellAt(rows[i], 1), CellAt(rows[i], 8), newStatus, note)]
  {
  }
}

=== FILE: tables.dfy ===
/** The keyword tables and status vocabulary shared by the CRM modules
    (`crm_modules/crm_constants.py`, copied verbatim into `fusion_crm_main.py`
    and `pages/01_crm_new.py`). */
module Tables {
  import opened Text
  import opened Seqs

  /** The ten sales statuses, in declaration order (`SALES_STATUS` keys). */
  const SalesStatuses: seq<string> := [
    "New", "Contacted", "Replied", "Engaged", "Qualified",
    "Proposal", "Negotiation", "Won", "Lost", "Dormant"
  ]

  /** The 21 PicoCELA keywords. */
  const PicoKeywords: seq<string> := [
    "network", "mesh", "wireless", "wifi", "connectivity",
    "iot", "smart", "digital", "automation", "sensor", "ai",
    "construction", "building", "site", "industrial", "management",
    "platform", "solution", "integration", "control", "monitoring"
  ]

  /** Column-mapping rules of the import: each fusion column with the patterns that suggest it. */
  const MappingRules: seq<(string, seq<string>)> := [
    ("company_name", ["company name", "company_name", "name", "organization", "business name"]),
    ("email", ["email", "email address", "e-mail", "mail", "contact email"]),
    ("phone", ["phone", "telephone", "tel", "contact phone", "phone number"]),
    ("website_url", ["website", "url", "web", "homepage", "site"]),
    ("industry", ["industry", "sector", "business type", "category"]),
    ("notes", ["description", "notes", "comment", "remarks", "details"]),
    ("source", ["source", "origin", "lead source", "channel"])
  ]

  /** The 13 indicators the import uses to flag WiFi need. */
  const ImportWifiIndicators: seq<string> := [
    "wifi", "wireless", "network", "connectivity", "mesh",
    "iot", "smart", "digital", "automation", "sensor",
    "monitoring", "tracking", "communication"
  ]

  /** Weighted keywords of the import relevance score. */
  const ScoringKeywords: seq<(string, nat)> := [
    ("network", 15), ("mesh", 20), ("wireless", 15), ("wifi", 15),
    ("connectivity", 10), ("iot", 10), ("smart", 8), ("automation", 8),
    ("construction", 12), ("building", 10), ("industrial", 8)
  ]

  /** Folding every entry of a table whose entries have no capitals changes nothing. */
  lemma FoldedTable(keys: seq<string>)
    requires forall i :: 0 <= i < |keys| ==> IsLower(keys[i])
    ensures LowerAll(keys) == keys
  {
    forall i | 0 <= i < |keys| ensures LowerAll(keys)[i] == keys[i] {
      LowerOfLower(keys[i]);
    }
  }

  /** Every table entry is already folded, so `keyword.lower()` is the keyword itself. */
  lemma PicoKeywordsFolded()
    ensures LowerAll(PicoKeywords) == PicoKeywords
  {
    FoldedTable(PicoKeywords);
  }

  lemma ScoringWeightsPositive()
    ensures forall p :: p in ScoringKeywords ==> p.1 > 0
  {
  }

  lemma PicoKeywordsDistinct()
    ensures Distinct(PicoKeywords)
  {
  }

  /** The fusion-column names of the mapping rules: the keys of a Python dict, hence distinct. */
  function RuleNames(rules: seq<(string, seq<string>)>): (r: seq<string>)
    ensures |r| == |rules|
    ensures forall i :: 0 <= i < |rules| ==> r[i] == rules[i].0
  {
    seq(|rules|, i requires 0 <= i < |rules| => rules[i].0)
  }

  lemma MappingRuleNamesDistinct()
    ensures Distinct(RuleNames(MappingRules))
  {
  }
}

=== FILE: user_admin.dfy ===
/** `fusion_crm_unified.py`: the administrator's user list filter and the checks of the
    registration form. */
module UserAdmin {
  import opened Text
  import opened Seqs

  /** A row of `SELECT id, username, email, company_name, role, status, created_at, is_active
      FROM users`; `is_active` is the stored integer flag. */
  datatype User = User(
    id: int,
    username: string,
    email: string,
    companyName: string,
    role: string,
    status: string,
    createdAt: string,
    isActive: int
  )

  /** The selectbox entry that switches a filter off. */
  const All: string := "すべて"

  // ---------------------------------------------------------------------------
  // The three stages of filter_users
  // ---------------------------------------------------------------------------

  /** Case-insensitive search in the user name or the e-mail address. */
  predicate SearchHit(search: string, u: User) {
    Contains(Lower(u.username), Lower(search)) || Contains(Lower(u.email), Lower(search))
  }

  /** The role a role filter other than "すべて" keeps: "管理者" keeps administrators, any
      other choice keeps ordinary users. */
  function FilterRole(roleFilter: string): (role: string)
    ensures role == "admin" <==> roleFilter == "管理者"
    ensures role == "admin" || role == "user"
  {
    if roleFilter == "管理者" then "admin" else "user"
  }

  /** The status condition: approved, pending, or inactive (a zero `is_active`); any other choice
      keeps every user. */
  predicate StatusHit(statusFilter: string, u: User) {
    if statusFilter == "承認済み" then u.status == "approved"
    else if statusFilter == "承認待ち" then u.status == "pending"
    else if statusFilter == "無効" then u.isActive == 0
    else true
  }

  /** The three stages as tests, each passing everything when it is switched off. */
  function SearchStage(search: string): User -> bool {
    (u: User) => search == "" || SearchHit(search, u)
  }

  function RoleStage(roleFilter: string): User -> bool {
    (u: User) => roleFilter == All || u.role == FilterRole(roleFilter)
  }

  function StatusStage(statusFilter: string): User -> bool {
    (u: User) => statusFilter == All || StatusHit(statusFilter, u)
  }

  /** What the administrator asked for: all three conditions at once. */
  predicate Selected(search: string, roleFilter: string, statusFilter: string, u: User) {
    SearchStage(search)(u) && RoleStage(roleFilter)(u) && StatusStage(statusFilter)(u)
  }

  function SelectedTest(search: string, roleFilter: string, statusFilter: string): User -> bool {
    (u: User) => Selected(search, roleFilter, statusFilter, u)
  }

  /** `filter_users`: the search narrows the list when it is non-empty, then the role filter,
      then the status filter, each when it is not "すべて". The users kept are exactly those
      in the list that meet every condition. */
  function FilterUsers(users: seq<User>, search: string, roleFilter: string, statusFilter: string): (r: seq<User>)
    ensures |r| <= |users|
    ensures forall u :: u in r <==> u in users && Selected(search, roleFilter, statusFilter, u)
  {
    var bySearch := if search != "" then Filter(SearchStage(search), users) else users;
    var byRole := if roleFilter != All then Filter(RoleStage(roleFilter), bySearch) else bySearch;
    if statusFilter != All then Filter(StatusStage(statusFilter), byRole) else byRole
  }

  /** A stage that is switched off passes the list through; one that is on filters it. */
  lemma StageAsFilter(on: bool, p: User -> bool, s: seq<User>)
    requires !on ==> forall u :: p(u)
    ensures (if on then Filter(p, s) else s) == Filter(p, s)
  {
    if !on {
      FilterAll(p, s);
    }
  }

  /** The three successive filters are one filter by the combined condition: the list keeps the
      order of the user table and drops no selected user. */
  lemma FilterUsersIsOneFilter(users: seq<User>, search: string, roleFilter: string, statusFilter: string)
    ensures FilterUsers(users, search, roleFilter, statusFilter)
         == Filter(SelectedTest(search, roleFilter, statusFilter), users)
    ensures IsSubseq(FilterUsers(users, search, roleFilter, statusFilter), users)
  {
    var s, r, t := SearchStage(search), RoleStage(roleFilter), StatusStage(statusFilter);
    var sr: User -> bool := u => s(u) && r(u);
    StageAsFilter(search != "", s, users);
    StageAsFilter(roleFilter != All, r, Filter(s, users));
    StageAsFilter(statusFilter != All, t, Filter(r, Filter(s, users)));
    FilterFilter(s, r, sr, users);
    FilterFilter(sr, t, SelectedTest(search, roleFilter, statusFilter), users);
    FilterIsSubseq(SelectedTest(search, roleFilter, statusFilter), users);
  }

  /** With every filter off, the list is returned unchanged. */
  lemma NoFilterKeepsAll(users: seq<User>)
    ensures FilterUsers(users, "", All, All) == users
  {
  }

  /** Filtering the filtered list again with the same choices changes nothing. */
  lemma FilterUsersIdempotent(users: seq<User>, search: string, roleFilter: string, statusFilter: string)
    ensures var once := FilterUsers(users, search, roleFilter, statusFilter);
      FilterUsers(once, search, roleFilter, statusFilter) == once
  {
    var test := SelectedTest(search, roleFilter, statusFilter);
    var once := FilterUsers(users, search, roleFilter, statusFilter);
    FilterUsersIsOneFilter(users, search, roleFilter, statusFilter);
    FilterUsersIsOneFilter(once, search, roleFilter, statusFilter);
    FilterAll(test, once);
  }

  // ---------------------------------------------------------------------------
  // Registration
  // ---------------------------------------------------------------------------

  const UsernameError: string := "ユーザー名は4文字以上で入力してください"
  const EmailError: string := "有効なメールアドレスを入力してください"
  const PasswordError: string := "パスワードは8文字以上で入力してください"
  const TermsError: string := "利用規約に同意してください"

  /** The four messages in the order they are checked. */
  const AllErrors: seq<string> := [UsernameError, EmailError, PasswordError, TermsError]

  /** One message when `bad`, none otherwise. */
  function ErrorIf(bad: bool, message: string): seq<string> {
    if bad then [message] else []
  }

  /** The validation of the registration form: the user name needs four characters, the e-mail
      an "@", the password eight characters, and the terms must be accepted. Each failed check
      contributes its message, in the order of the checks. */
  function RegistrationErrors(username: string, email: string, password: string, agreed: bool): (errors: seq<string>)
    ensures UsernameError in errors <==> |username| < 4
    ensures EmailError in errors <==> '@' !in email
    ensures PasswordError in errors <==> |password| < 8
    ensures TermsError in errors <==> !agreed
    ensures forall e :: e in errors ==> e in AllErrors
  {
    ErrorIf(|username| < 4, UsernameError)
      + ErrorIf('@' !in email, EmailError)
      + ErrorIf(|password| < 8, PasswordError)
      + ErrorIf(!agreed, TermsError)
  }

  /** The messages keep the order of the checks and never repeat. */
  lemma ErrorsInOrder(username: string, email: string, password: string, agreed: bool)
    ensures IsSubseq(RegistrationErrors(username, email, password, agreed), AllErrors)
    ensures Distinct(RegistrationErrors(username, email, password, agreed))
  {
    var e1, e2 := ErrorIf(|username| < 4, UsernameError), ErrorIf('@' !in email, EmailError);
    var e3, e4 := ErrorIf(|password| < 8, PasswordError), ErrorIf(!agreed, TermsError);
    assert RegistrationErrors(username, email, password, agreed) == e1 + (e2 + (e3 + (e4 + [])));
    assert AllErrors == [UsernameError] + ([EmailError] + ([PasswordError] + ([TermsError] + [])));
    PickInOrder(!agreed, TermsError, [], []);
    PickInOrder(|password| < 8, PasswordError, e4 + [], [TermsError] + []);
    PickInOrder('@' !in email, EmailError, e3 + (e4 + []), [PasswordError] + ([TermsError] + []));
    PickInOrder(|username| < 4, UsernameError, e2 + (e3 + (e4 + [])),
                [EmailError] + ([PasswordError] + ([TermsError] + [])));
  }

  /** Putting a message that is not among the later ones in front of them keeps the list in
      check order and free of repetitions. */
  lemma PickInOrder(bad: bool, message: string, rest: seq<string>, later: seq<string>)
    requires IsSubseq(rest, later) && Distinct(rest) && message !in later
    requires forall e :: e in rest ==> e in later
    ensures IsSubseq(ErrorIf(bad, message) + rest, [message] + later)
    ensures Distinct(ErrorIf(bad, message) + rest)
    ensures forall e :: e in ErrorIf(bad, message) + rest ==> e in [message] + later
  {
    if bad {
      assert ([message] + rest)[1..] == rest;
      assert ([message] + later)[1..] == later;
    } else {
      assert ErrorIf(bad, message) + rest == rest;
      if |rest| > 0 {
        assert ([message] + later)[1..] == later;
        SubseqOfTail(rest, [message] + later);
      }
    }
  }

  /** What pressing the button does: show the messages, or hand the data to `register_user`. */
  datatype Submission =
    | Rejected(errors: seq<string>)
    | Registers(username: string, email: string, password: string, companyName: string)

  function Submit(username: string, email: string, password: string, companyName: string, agreed: bool)
    : (s: Submission)
    ensures s.Rejected? ==> |s.errors| > 0
    ensures s.Rejected? ==> s.errors == RegistrationErrors(username, email, password, agreed)
    ensures s.Registers? ==> s == Registers(username, email, password, companyName)
  {
    var errors := RegistrationErrors(username, email, password, agreed);
    if |errors| > 0 then Rejected(errors) else Registers(username, email, password, companyName)
  }

  /** The account is created exactly when all four checks pass. */
  lemma RegistersIffValid(username: string, email: string, password: string, companyName: string, agreed: bool)
    ensures Submit(username, email, password, companyName, agreed).Registers?
        <==> |username| >= 4 && '@' in email && |password| >= 8 && agreed
  {
    var errors := RegistrationErrors(username, email, password, agreed);
    if |errors| > 0 {
      assert errors[0] in errors;
    }
  }
}
